=== FILE: README.md ===
# click2call core, modelled in Dafny

click2call lets a website visitor place a voice call to a business from a widget.
This project models five pieces of its logic and proves properties about them:

- **The signalling relay** (`server/socket.ts`). This is the process-wide `stats`
  record and the `activeCalls` map of call sessions. The `connection` handler, the
  `signal` handler (`call-start`, `call-end`) and the `disconnect` handler change them,
  and `getServerStats` reports the counters. Module `Signaling` has two layers:
  - pure handler functions over a `Relay` value;
  - a `SignalServer` class whose methods update the fields in place and are proved equal
    to those functions.
- **The inbound-call routing decision** (`server/routes/twilio.ts`). This covers
  `checkBusinessHours`, `handleRoute` and the route selection and status codes of the
  `/voice` and `/status` webhooks. Module `TwilioRoutes` holds them; module
  `RoutingExamples` has concrete instances.
- **The mobile call service** (`mobile/services/callService.ts`). The `currentCallId`,
  ringtone and sound slots of `CallService` are a class, `CallService.Service`. Its
  methods return the audio and socket effects they trigger, in order.
- **The call-history card** (`mobile/components/CallCard.tsx`). This covers
  `formatDuration`, the status label table and the caller-name fallback. Module `CallCard`.
- **The active-call panel** (`mobile/components/ActiveCallPanel.tsx`). This covers
  `formatTime`, the mute and speaker toggles and the one-second timer. Module
  `ActiveCallPanel`, with the panel state as class `Panel`.

Module `JsText` models the JavaScript built-ins these use:
- `Number.prototype.toString` (`ToDecimal`);
- `padStart` (`PadStart`, `Pad2`);
- `String.prototype.split` (`Split`);
- `Number(...)` on a string (`ParseNumber`).

`ParseNumber` handles the digit strings the model needs; any other string yields `None`,
which stands for `NaN`.

Modelling choices:
- **Clocks and time zones are inputs.** The clock (`now`, in milliseconds) is a parameter.
  So are the output of the `Intl.DateTimeFormat` time-zone conversion (`localTime`, the
  `"HH:MM"` text it produces, or `None` when the conversion throws) and the server-local
  weekday.
- **Twilio calls become values.** The Twilio signature check (`twilio.validateRequest`)
  is a boolean input. The TwiML builder is the `Instruction` datatype.
- **Database lookups become inputs.** The Supabase lookups are `Option`-valued inputs,
  where `None` stands for "no row or an error".
- **Socket.IO connections are ids.** Each connection is the string id of its socket.
- **Each handler is one atomic step.**

The relay's `activeCalls` is a JavaScript `Map`. The model holds it as its entries
(`calls`) plus its keys in insertion order (`order`), because "the first session listing
the socket" depends on iteration order.

Some behaviour is kept exactly as the code has it, not as a reader might expect:
- A `call-end` decrements the active-call counter even when the sender has no session,
  so the counter and the table can drift apart (`Signaling.CounterDrifts`).
- Only the first matching session is removed per event, so a socket with two sessions
  keeps one after disconnecting (`Signaling.DisconnectLeavesLaterSession`).
- Two `call-start`s in the same millisecond get the same id. The second overwrites the
  first (`Signaling.SameMillisecondOverwrites`).

## Model

| member | source | states |
|---|---|---|
| Signaling.Initial | server/socket.ts:17-26 | The relay at process start has zeroed counters, no last connection or disconnection, the given start time and an empty table, and it is well formed. |
| Signaling.FirstSessionOf | server/socket.ts:152-158 | The result is the position, in insertion order, of the first session listing the socket: that session lists it and none before it does. `None` means no session lists it. |
| Signaling.RemoveAt | server/socket.ts:154 | `Map.delete` removes exactly one key from the table and keeps the other entries, the counters and well-formedness. |
| Signaling.CallId | server/socket.ts:118 | A call id is `call-` followed by decimal digits, and those digits read back as the millisecond it was made at. |
| Signaling.CallIdInjective | server/socket.ts:118 | Call ids `call-<ms>` are equal exactly when the milliseconds are. |
| Signaling.OnConnect | server/socket.ts:90-94 | The `connection` handler adds exactly 1 to `totalConnections` and to `activeConnections` and records the time as `lastConnection`. Every other counter and the table stay as they were, and the relay stays well formed. |
| Signaling.StartCall | server/socket.ts:113-134 | `call-start` keeps the relay well formed: the key order stays duplicate-free and matches the table. |
| Signaling.EndCall | server/socket.ts:148-158 | `call-end` keeps the relay well formed. |
| Signaling.OnSignal | server/socket.ts:110-160 | The `signal` handler keeps the relay well formed for every signal type. |
| Signaling.OnDisconnect | server/socket.ts:162-174 | The `disconnect` handler keeps the relay well formed. |
| Signaling.ServerStatsAt | server/socket.ts:37-40 | The reported stats equal the stored record in every field except `uptime`, which is the floor of the elapsed milliseconds divided by 1000. |
| Signaling.EchoTick | server/socket.ts:137-146 | An echo is emitted exactly when the call id is still in the table. |
| Signaling.StartCallFacts | server/socket.ts:113-129 | `call-start` adds 1 to `totalCalls` and `activeCalls`, leaves the other counters and maps `call-<now>` to a session whose only participant is the sender. It overwrites an existing entry of that id in place and leaves every other session unchanged. It emits "connecting", then "established". |
| Signaling.SignalDispatch | server/socket.ts:110-160 | The `signal` handler runs the `call-start` branch for type `call-start`, the `call-end` branch for `call-end`, and changes and emits nothing for any other type. |
| Signaling.EndCallCounters | server/socket.ts:148-149 | `call-end` sets `activeCalls` to `max(0, activeCalls-1)` whether or not a session exists, and leaves every other counter. |
| Signaling.EndCallEmits | server/socket.ts:152-158 | `call-ended` is emitted iff some session lists the sender, and nothing is emitted otherwise. |
| Signaling.EndCallSessions | server/socket.ts:152-158 | `call-end` removes at most one session, keeps the values of the remaining ones and leaves sessions without the sender untouched. When nothing was emitted, the table and its order are unchanged. |
| Signaling.DisconnectCounters | server/socket.ts:162-174 | A disconnect subtracts exactly 1 from `activeConnections` and records the time. Every other field of the stats record, `lastConnection` and `uptime` included, stays, except `activeCalls`, which drops (clamped at 0) only when a session was removed. |
| Signaling.DisconnectFindsSession | server/socket.ts:167-174 | A disconnect changes the table's keys iff some session lists the socket. |
| Signaling.DisconnectSessions | server/socket.ts:167-174 | A disconnect removes at most one session, keeps the values of the remaining ones and leaves sessions without the socket untouched. |
| Signaling.StartEndRoundTrip | server/socket.ts:113-158 | A `call-start` at a fresh millisecond from a socket without a session, then its `call-end`, restores the table (entries and order) and `activeCalls`, with one more call in `totalCalls`. |
| Signaling.StartedSessionIsFirst | server/socket.ts:119-123 | A session added at a fresh id goes last in the map's order. It is the first session listing a sender that had none. |
| Signaling.CounterDrifts | server/socket.ts:149-158 | A `call-end` from a socket without a session leaves the table but still decrements the counter, so a counter equal to the table size ends one below it. |
| Signaling.SameMillisecondOverwrites | server/socket.ts:115-123 | Two `call-start`s in the same millisecond count two calls. The table gains at most one id, whose session lists only the second caller; the first caller is in no new session. |
| Signaling.DisconnectLeavesLaterSession | server/socket.ts:168-174 | A socket listed by two sessions is still listed by one after it disconnects. |
| Signaling.Step | server/socket.ts:90-174 | Every socket event keeps the relay well formed. |
| Signaling.Run | server/socket.ts:90-174 | Every sequence of socket events keeps the relay well formed. |
| Signaling.RunCounters | server/socket.ts:92-93 | Over any run: `totalConnections` grows by the number of connects and `totalCalls` by the number of call-starts, so neither is decremented; `activeConnections` changes by connects minus disconnects; `startTime` stays; `0 <= activeCalls <= totalCalls`. |
| Signaling.SignalServer.constructor | server/socket.ts:17-35 | The server starts in the initial relay state. |
| Signaling.SignalServer.GetServerStats | server/socket.ts:37-40 | The method stores the uptime into the record, returns a copy of it and leaves the table unchanged. |
| Signaling.SignalServer.HandleConnection | server/socket.ts:90-94 | The new state is the connect handler applied to the old one. |
| Signaling.SignalServer.FirstSessionWith | server/socket.ts:152-158 | The `for...of` scan that breaks at the first match finds exactly `FirstSessionOf`. |
| Signaling.SignalServer.Delete | server/socket.ts:154 | Deleting the key at a position gives `RemoveAt` of the old state. |
| Signaling.SignalServer.HandleSignal | server/socket.ts:110-160 | The new state and the emitted events are the `signal` handler applied to the old state. |
| Signaling.SignalServer.HandleCallStart | server/socket.ts:113-134 | The new state and the emitted events are the `call-start` branch applied to the old state. |
| Signaling.SignalServer.HandleCallEnd | server/socket.ts:148-158 | The new state and the emitted events are the `call-end` branch applied to the old state. |
| Signaling.SignalServer.HandleDisconnect | server/socket.ts:162-174 | The new state is the disconnect handler applied to the old one. |
| TwilioRoutes.ClockMinutes | server/routes/twilio.ts:129-134 | Clock text without a `:` has no minutes field, so it reads as NaN (`None`). |
| TwilioRoutes.ClockMinutesOfFields | server/routes/twilio.ts:129-134 | Two colon-free digit fields joined by `:` read as the first times 60 plus the second. |
| TwilioRoutes.ClockTextMinutes | server/routes/twilio.ts:129-134 | Parsing `"HH:MM"` with `split(':')` and `Number` gives `h*60+m`. |
| TwilioRoutes.CheckBusinessHours | server/routes/twilio.ts:120-141 | Being within hours implies the weekday is in `days`, both window ends are readable and start is not after end. So an overnight window (end before start) is never within hours. |
| TwilioRoutes.BusinessHoursWindow | server/routes/twilio.ts:129-140 | For windows written `HH:MM`, being within hours holds iff the weekday is in `days` and `start <= now <= end` in minutes, inclusive at both ends. |
| TwilioRoutes.HandleRoute | server/routes/twilio.ts:144-153 | The instruction is a SIP dial of the unchanged route iff the route starts with `sip:`. It is a number dial of the unchanged route iff the route is not SIP and matches `^\+?[1-9]\d{1,14}$`. Otherwise it is the apology. |
| TwilioRoutes.DialNumberIsNumeral | server/routes/twilio.ts:147 | The dial-number pattern holds iff the route is the decimal text of some `n` with `10 <= n < 10^15`, optionally preceded by `+`. |
| TwilioRoutes.DialNumberValue | server/routes/twilio.ts:147 | A route matching the dial-number pattern denotes a number `n` with `10 <= n < 10^15`. |
| TwilioRoutes.NumeralIsDialNumber | server/routes/twilio.ts:147 | The decimal text of any number in `[10, 10^15)`, with or without `+`, matches the dial-number pattern. |
| TwilioRoutes.NumeralLengthRange | server/routes/twilio.ts:147 | A number has 2 to 15 decimal digits iff it lies in `[10, 10^15)`. |
| TwilioRoutes.DialNumberRejects | server/routes/twilio.ts:147-152 | A leading `0`, fewer than 2 or more than 15 digits, or any non-digit produce no number dial. |
| TwilioRoutes.WithinBusinessHours | server/routes/twilio.ts:79-81 | Without a window the call is always within hours. The result is `None` (a thrown conversion) iff a window is set and the time-zone conversion failed. Being within a set window implies the weekday is one of its days. |
| TwilioRoutes.SelectRoute | server/routes/twilio.ts:79-89 | A selected route exists only with routing settings, and is either the primary route `defaultRoute \|\| destination` or the fallback route. |
| TwilioRoutes.RouteSelection | server/routes/twilio.ts:79-89 | Without business hours the route is `defaultRoute \|\| destination`. With hours, out of hours with a fallback gives the fallback, and otherwise the primary route. A failed time-zone conversion gives no route. |
| TwilioRoutes.FallbackOnlyOutOfHours | server/routes/twilio.ts:83-85 | A route other than the primary one is only ever the fallback, chosen out of hours with a fallback set. |
| TwilioRoutes.ValidateTwilioRequest | server/routes/twilio.ts:24-52 | A request is valid iff the settings were loaded, both credentials are non-empty and the signature check accepts it. |
| TwilioRoutes.VoiceHandler | server/routes/twilio.ts:55-97 | `/voice` answers with TwiML or with a status, and the only statuses are 403, 404 and 500. |
| TwilioRoutes.VoiceDecisionOrder | server/routes/twilio.ts:55-97 | `/voice` answers 403 iff validation fails, 404 iff validation passes but the widget is missing, and TwiML iff a route was selected, in which case it is `handleRoute` of that route. |
| TwilioRoutes.StatusHandler | server/routes/twilio.ts:100-117 | `/status` always answers with a status, either 200 or 403. |
| TwilioRoutes.StatusAcknowledges | server/routes/twilio.ts:100-117 | `/status` answers 200 iff the request validates, and 403 otherwise. |
| RoutingExamples.NamedRoutesApologise | server/routes/twilio.ts:149-152 | `voicemail`, `aibot`, `call2app` and `not-a-number` each produce exactly the apology and no dial. |
| RoutingExamples.DialExamples | server/routes/twilio.ts:145-148 | An E.164 number and a SIP URI are dialled unchanged. |
| RoutingExamples.AlwaysDefaultWithoutHours | server/routes/twilio.ts:79-88 | A widget without business hours always routes to its default route, at any time. |
| RoutingExamples.SundayGoesToFallback | server/routes/twilio.ts:83-89 | On a day outside `days` the fallback is used if set; with no fallback the call fails open to the default route. |
| CallService.Service.constructor | mobile/services/callService.ts:5-8 | A new service has no current call, no ringtone and no sound. |
| CallService.Service.Init | mobile/services/callService.ts:10-41 | `init` loads the ringtone and leaves the current call unchanged. |
| CallService.Service.HandleIncomingCall | mobile/services/callService.ts:43-56 | An incoming call sets `currentCallId` to its id. If a ringtone is loaded it plays and loops it. |
| CallService.Service.HandleCallEnded | mobile/services/callService.ts:58-81 | A matching id resets `currentCallId` to null, stops the ringtone and unloads the sound. A different id changes nothing. |
| CallService.Service.AnswerCall | mobile/services/callService.ts:83-88 | Answering stops the ringtone if loaded, sends the answer and leaves `currentCallId` unchanged. |
| CallService.Service.RejectCall | mobile/services/callService.ts:90-96 | Rejecting stops the ringtone, sends the rejection and always resets `currentCallId`. |
| CallService.Service.EndCall | mobile/services/callService.ts:98-101 | Ending sends the end and always resets `currentCallId`. |
| CallService.Service.ToggleMute | mobile/services/callService.ts:103-105 | Toggling mute only forwards the mute state for the call. |
| CallService.Service.Disconnect | mobile/services/callService.ts:107-119 | Disconnecting unloads and clears the ringtone and sound and leaves `currentCallId` as it was. |
| CallService.AnswerThenRemoteEnd | mobile/services/callService.ts:43-88 | An incoming call that is answered and then ended by the remote side leaves no current call, with the ringtone played, looped and stopped. |
| CallCard.FormatDuration | mobile/components/CallCard.tsx:13-18 | Computes the duration text `formatDuration` returns; its meaning is stated by `CallCard.FormatDurationCases` and `CallCard.ZeroDurationDiffersFromTimer`. |
| CallCard.FormatDurationCases | mobile/components/CallCard.tsx:13-18 | `formatDuration` returns `--:--` iff the duration is absent or 0. Otherwise it returns `pad2(s div 60) + ":" + pad2(s mod 60)`, the same text as the active-call timer's `formatTime`. |
| CallCard.ZeroDurationDiffersFromTimer | mobile/components/CallCard.tsx:14 | The two formatters differ on zero: `formatDuration(0)` returns `--:--` while `formatTime(0)` returns `00:00`. |
| CallCard.GetStatusDisplay | mobile/components/CallCard.tsx:28-61 | Computes the colour and label of a status; its meaning is stated by `CallCard.StatusLabels` and `CallCard.UnknownStatusLabel`. |
| CallCard.StatusLabels | mobile/components/CallCard.tsx:29-53 | `completed`, `missed`, `incoming` and `ongoing` map to their own names with the first letter capitalised. |
| CallCard.UnknownStatusLabel | mobile/components/CallCard.tsx:54-60 | Every other status, the empty one included, maps to grey `Unknown`. |
| CallCard.CallerName | mobile/components/CallCard.tsx:88 | The name is shown when non-empty, `Unknown Caller` otherwise, and never an empty string. |
| ActiveCallPanel.FormatTime | mobile/components/ActiveCallPanel.tsx:36-40 | Computes the timer text; its meaning is stated by `ActiveCallPanel.FormatTimeShape`, `FormatTimeReadsBack`, `FormatTimeInjective` and `FormatTimeMinutesWidth`. |
| ActiveCallPanel.FormatTimeShape | mobile/components/ActiveCallPanel.tsx:36-40 | The timer text is digits, a colon and exactly two digits. The seconds field reads back as `s mod 60 < 60` and the minutes field as `s div 60`. |
| ActiveCallPanel.FormatTimeMinutesWidth | mobile/components/ActiveCallPanel.tsx:37-39 | The minutes field is padded to two characters and never truncated; 100 or more minutes give 3 or more digits. |
| ActiveCallPanel.FormatTimeReadsBack | mobile/components/ActiveCallPanel.tsx:36-40 | Splitting the text at `:` and applying `Number` gives back the minutes and seconds. |
| ActiveCallPanel.FormatTimeInjective | mobile/components/ActiveCallPanel.tsx:36-40 | Different second counts always display differently. |
| ActiveCallPanel.Panel.constructor | mobile/components/ActiveCallPanel.tsx:22-24 | A panel starts unmuted, with the speaker off and the timer at 0. |
| ActiveCallPanel.Panel.HandleToggleMute | mobile/components/ActiveCallPanel.tsx:42-46 | Mute flips, and the call id and new state are passed on. |
| ActiveCallPanel.Panel.HandleToggleSpeaker | mobile/components/ActiveCallPanel.tsx:48-51 | The speaker flag flips. |
| ActiveCallPanel.Panel.Tick | mobile/components/ActiveCallPanel.tsx:28-30 | Each tick adds exactly 1 to the timer. |
| ActiveCallPanel.Panel.TimerText | mobile/components/ActiveCallPanel.tsx:36-40 | The displayed timer always has the `MM:SS` layout. |
| ActiveCallPanel.ToggleMuteTwice | mobile/components/ActiveCallPanel.tsx:42-46 | Toggling mute twice restores it and reports opposite states. |
| ActiveCallPanel.MountAndRun | mobile/components/ActiveCallPanel.tsx:23-33 | After `n` ticks from mount the timer is `n` and shows `formatTime(n)`. |
| JsText.ToDecimal | mobile/components/CallCard.tsx:17 | `toString` of a natural number is a non-empty digit string with no leading zero, except for `"0"` itself. |
| JsText.DecimalRoundTrip | mobile/components/CallCard.tsx:17 | `toString` of a natural number reads back to that number. |
| JsText.CanonicalRoundTrip | server/routes/twilio.ts:147 | A digit string without a leading zero is the `toString` of its value. |
| JsText.DecimalLength | server/routes/twilio.ts:147 | `toString(n)` has at most `k` digits iff `n < 10^k`. |
| JsText.PadStart | mobile/components/CallCard.tsx:17 | `padStart` yields at least the width, ends with the input and fills in front with the pad character. |
| JsText.Pad2Facts | mobile/components/CallCard.tsx:17 | `padStart(2,'0')` of `toString(n)` is digits reading back as `n`. It is two characters below 100 and the full number otherwise, and contains no colon. |
| JsText.ParseNumber | server/routes/twilio.ts:129 | `Number` of a string is a value exactly when the string is all digits. |
| JsText.Split | server/routes/twilio.ts:129 | `split` yields at least one part, and no part contains the separator. |
| JsText.SplitJoin | server/routes/twilio.ts:129 | Joining the parts of `split` with the separator gives back the string. |

## Left out

- Socket.IO setup, CORS and handshake logging, and all `console` output are I/O.
- The 2-second `await` between "connecting" and "established" is left out. So is the
  echo `setInterval`. Each `signal` is one atomic step that emits both events at once,
  so other events cannot fall between them. Only the echo guard (`EchoTick`) is modelled.
- Signaling.StartCall uses the same `now` for the id and the session's `startTime`. The
  code reads `Date.now()` twice and the two may differ by a millisecond.
- `lastConnection` and `lastDisconnection` are kept as millisecond timestamps rather than
  ISO strings.
- `stats` counters are unbounded integers. JavaScript numbers lose precision above 2^53.
- The Socket.IO `error` handler only logs and is not modelled.
- `Intl.DateTimeFormat` time-zone conversion and `Date.getDay()` are inputs, not modelled.
  So is a formatter that prints `24:00` at midnight, because the text is an input.
- `twilio.validateRequest` (HMAC signature check) is a boolean input, and TwiML XML
  rendering is the `Instruction` value.
- JsText.ParseNumber: strings `Number` reads as numbers but that are not plain digit
  strings (`" 9"`, `"9.5"`, `"-5"`, `"0x9"`, `"1e1"`) give `None` (NaN) here.
- TwilioRoutes.ClockMinutes: `Number` of anything other than a plain digit string is
  treated as unreadable. The model does not follow JavaScript for `" 9"`, `"9.5"` or
  `"0x9"`, which `Number` accepts; an unreadable time makes the window closed, as `NaN`
  comparisons do.
- TwilioRoutes.VoiceHandler: the model's `BusinessHours` always has the declared
  `{start, end, days}` shape. A stored window of another shape, such as the pair a
  range picker yields, makes `start.split`, `end.split` or `days.includes` throw, and
  `/voice` answers 500. That 500 is not modelled.
- Supabase queries in the handlers are `Option` inputs. Any lookup error is `None`.
- The 500 response of `/voice` is modelled for the exceptions routing itself raises: no
  routing settings, a rejected time zone, or no route string at all. It is not modelled
  for exceptions thrown inside Supabase or Twilio code. The 500 of `/status` only follows
  such exceptions and is left out.
- Audio (`expo-av`) and the socket client are left out. `CallService` records the calls it
  would make as `Effect` values. Audio failures are not modelled: most are caught and
  logged, but not all of them (next two lines).
- CallService.Service.RejectCall: a failing `stopAsync` is not caught, so `rejectCall`
  rejects before it sends the rejection and before it clears `currentCallId`. The model
  always sends and clears.
- CallService.Service.AnswerCall: a failing `stopAsync` is not caught, so `answerCall`
  rejects before it sends the answer. The model always sends.
- CallService.Service.HandleCallEnded does not model an exception from `unloadAsync`,
  which leaves `sound` set.
- `CallService.Service` `init` only models the ringtone being loaded. Audio mode setup and
  socket subscription are I/O.
- CallCard.FormatDuration: the card renders its duration row only when `call.duration`
  is truthy (CallCard.tsx:104), so the `--:--` result is never displayed. The rendering
  guard is not modelled; the model states what the function returns.
- CallCard.FormatDurationCases and CallCard.FormatDuration cover natural-number durations
  only. A negative or fractional duration is not modelled.
- `formatDate` in `CallCard.tsx` depends on locale and clock.
- The status icons in `getStatusDisplay` are rendering; only colour and label are modelled.
- React state batching and re-rendering are outside the model. Each toggle and timer tick
  is one update of the panel's state, and the interval's cleanup on unmount is not modelled.

=== FILE: active_call_panel.dfy ===
/**
 * The in-call panel of the mobile app: the running call timer shown as mm:ss and the mute
 * and speaker toggles. React state (`useState`) becomes the fields of a panel object; the
 * one-second interval becomes one call of `Tick` per elapsed second.
 */
module ActiveCallPanel {
  import opened Wrappers
  import opened JsText

  /**
   * `formatTime`: whole minutes, a colon, then the seconds within the minute, each field
   * zero-padded to two characters. Zero seconds shows as "00:00".
   */
  function FormatTime(seconds: nat): string {
    Pad2(seconds / 60) + ":" + Pad2(seconds % 60)
  }

  /**
   * The shape of the timer text: a colon three characters from the end, exactly two
   * digits after it holding the seconds within the minute (always below 60), and the
   * whole minutes in digits before it.
   */
  lemma FormatTimeShape(seconds: nat)
    ensures var r := FormatTime(seconds);
      && |r| >= 5 && r[|r| - 3] == ':'
      && AllDigits(r[|r| - 2..]) && DigitsValue(r[|r| - 2..]) == seconds % 60 < 60
      && AllDigits(r[..|r| - 3]) && DigitsValue(r[..|r| - 3]) == seconds / 60
  {
    var mins, secs := seconds / 60, seconds % 60;
    Pad2Facts(mins);
    Pad2Facts(secs);
    JoinedFields(Pad2(mins), Pad2(secs));
  }

  /** The minutes field is padded to two characters but never truncated. */
  lemma FormatTimeMinutesWidth(seconds: nat)
    ensures var r := FormatTime(seconds);
      && |r| - 3 == (if seconds / 60 < 100 then 2 else |ToDecimal(seconds / 60)|)
      && (seconds >= 6000 ==> |r| - 3 >= 3)
  {
    var mins, secs := seconds / 60, seconds % 60;
    Pad2Length(mins);
    Pad2Length(secs);
    JoinedFields(Pad2(mins), Pad2(secs));
    if seconds >= 6000 {
      Pad2Wide(mins);
    }
  }

  /**
   * Reading the timer text back the way a clock string is read (split at ':', each side
   * through `Number`) gives the minutes and seconds it was made from: minutes * 60 +
   * seconds is the elapsed time.
   */
  lemma FormatTimeReadsBack(seconds: nat)
    ensures var parts := Split(FormatTime(seconds), ':');
      && |parts| == 2
      && ParseNumber(parts[0]) == Some(seconds / 60)
      && ParseNumber(parts[1]) == Some(seconds % 60)
      && parts[0] == FormatTime(seconds)[..|FormatTime(seconds)| - 3]
  {
    ClockTextReadsBack(seconds / 60, seconds % 60);
    Pad2Facts(seconds % 60);
    JoinedFields(Pad2(seconds / 60), Pad2(seconds % 60));
  }

  /** Formatting is one-to-one: two different elapsed times never show the same text. */
  lemma FormatTimeInjective(a: nat, b: nat)
    ensures FormatTime(a) == FormatTime(b) <==> a == b
  {
    if FormatTime(a) == FormatTime(b) {
      FormatTimeReadsBack(a);
      FormatTimeReadsBack(b);
      assert a == (a / 60) * 60 + a % 60;
      assert b == (b / 60) * 60 + b % 60;
    }
  }

  /** What the panel passes to its `onToggleMute` callback. */
  datatype MuteNotice = MuteNotice(callId: string, muted: bool)

  class Panel {
    const callId: string
    var muted: bool
    var speakerOn: bool
    var callTimer: nat

    /** The panel as first rendered: unmuted, speaker off, timer at zero. */
    constructor (callId: string)
      ensures this.callId == callId
      ensures !muted && !speakerOn && callTimer == 0
    {
      this.callId := callId;
      muted := false;
      speakerOn := false;
      callTimer := 0;
    }

    /** `handleToggleMute`: flips `muted` and reports the new value for this call. */
    method HandleToggleMute() returns (notice: MuteNotice)
      modifies this`muted
      ensures muted == !old(muted)
      ensures notice == MuteNotice(callId, muted)
    {
      var newMuteState := !muted;
      muted := newMuteState;
      notice := MuteNotice(callId, newMuteState);
    }

    /** `handleToggleSpeaker`: flips `speakerOn`. */
    method HandleToggleSpeaker()
      modifies this`speakerOn
      ensures speakerOn == !old(speakerOn)
    {
      speakerOn := !speakerOn;
    }

    /** One firing of the one-second interval: `setCallTimer(prev => prev + 1)`. */
    method Tick()
      modifies this`callTimer
      ensures callTimer == old(callTimer) + 1
    {
      callTimer := callTimer + 1;
    }

    /** The timer text the panel renders. */
    function TimerText(): (r: string)
      reads this
      ensures |r| >= 5 && r[|r| - 3] == ':'
    {
      FormatTimeShape(callTimer);
      FormatTime(callTimer)
    }
  }

  /** Pressing mute twice leaves the panel as muted as it was, and reports both changes. */
  method ToggleMuteTwice(p: Panel) returns (first: MuteNotice, second: MuteNotice)
    modifies p
    ensures p.muted == old(p.muted) && p.speakerOn == old(p.speakerOn)
    ensures p.callTimer == old(p.callTimer)
    ensures first == MuteNotice(p.callId, !p.muted) && second == MuteNotice(p.callId, p.muted)
  {
    first := p.HandleToggleMute();
    second := p.HandleToggleMute();
  }

  /**
   * A panel mounted for `callId` after `elapsed` firings of the interval: the timer shows
   * exactly the elapsed seconds, and neither toggle has moved.
   */
  method MountAndRun(callId: string, elapsed: nat) returns (p: Panel)
    ensures p.callTimer == elapsed && !p.muted && !p.speakerOn && p.callId == callId
    ensures p.TimerText() == FormatTime(elapsed)
  {
    p := new Panel(callId);
    var ticks := 0;
    while ticks < elapsed
      invariant 0 <= ticks <= elapsed
      invariant p.callTimer == ticks && !p.muted && !p.speakerOn
    {
      p.Tick();
      ticks := ticks + 1;
    }
  }
}

=== FILE: call_card.dfy ===
/**
 * The call-history card of the mobile app: the call's duration as mm:ss, the label and
 * colour shown for its status, and the caller's displayed name.
 */
module CallCard {
  import opened Wrappers
  import opened JsText
  import ActiveCallPanel

  /**
   * `formatDuration`: a duration in whole seconds, `None` when the record has none.
   * An absent or zero duration (both falsy) gives "--:--"; any other gives mm:ss. The
   * card renders the duration row only for a truthy duration, so the "--:--" result is
   * never displayed.
   */
  function FormatDuration(seconds: Option<nat>): string {
    if seconds.None? || seconds.value == 0 then "--:--"
    else Pad2(seconds.value / 60) + ":" + Pad2(seconds.value % 60)
  }

  /**
   * `formatDuration` returns "--:--" exactly when no positive duration is known; otherwise
   * it returns the same text as the in-call timer's `formatTime` for that many seconds, so
   * the seconds field is two digits below 60 and the minutes field is at least two digits,
   * never cut.
   */
  lemma FormatDurationCases(seconds: Option<nat>)
    ensures FormatDuration(seconds) == "--:--" <==> seconds.None? || seconds.value == 0
    ensures seconds.Some? && seconds.value > 0 ==>
      FormatDuration(seconds) == ActiveCallPanel.FormatTime(seconds.value)
  {
    if seconds.Some? && seconds.value > 0 {
      var t := ActiveCallPanel.FormatTime(seconds.value);
      assert FormatDuration(seconds) == t;
      assert IsDigit(t[|t| - 1]) by {
        ActiveCallPanel.FormatTimeShape(seconds.value);
      }
      assert t != "--:--" by {
        assert !IsDigit("--:--"[4]);
      }
    }
  }

  /** The two formatters differ on zero: `formatDuration(0)` is "--:--", `formatTime(0)` is "00:00". */
  lemma ZeroDurationDiffersFromTimer()
    ensures FormatDuration(Some(0)) == "--:--" && ActiveCallPanel.FormatTime(0) == "00:00"
  {
    assert ToDecimal(0) == "0";
    assert Pad2(0) == Repeat('0', 1) + "0" == "00";
  }

  /** What a card shows for a call status (the icon is drawn in the same colour). */
  datatype StatusDisplay = StatusDisplay(color: string, text: string)

  const KnownStatuses: seq<string> := ["completed", "missed", "incoming", "ongoing"]

  /** `getStatusDisplay`: the four statuses of a call record, and a grey "Unknown" for anything else. */
  function GetStatusDisplay(status: string): StatusDisplay {
    match status
    case "completed" => StatusDisplay("#10B981", "Completed")
    case "missed" => StatusDisplay("#EF4444", "Missed")
    case "incoming" => StatusDisplay("#2563EB", "Incoming")
    case "ongoing" => StatusDisplay("#F59E0B", "Ongoing")
    case _ => StatusDisplay("#6B7280", "Unknown")
  }

  /** The status word with its first letter in upper case (ASCII letters only). */
  function Capitalize(s: string): string {
    if s != [] && 'a' <= s[0] <= 'z' then [(s[0] as int - 32) as char] + s[1..] else s
  }

  /** A known status is labelled by its own name with the first letter capitalised. */
  lemma StatusLabels(status: string)
    requires status in KnownStatuses
    ensures GetStatusDisplay(status).text == Capitalize(status)
  {
    if status == "completed" {
      CapitalizeAscii(status, "Completed");
    } else if status == "missed" {
      CapitalizeAscii(status, "Missed");
    } else if status == "incoming" {
      CapitalizeAscii(status, "Incoming");
    } else {
      CapitalizeAscii(status, "Ongoing");
    }
  }

  /** A word whose first letter is lower case is capitalised by shifting that letter alone. */
  lemma CapitalizeAscii(w: string, shown: string)
    requires |w| > 0 && 'a' <= w[0] <= 'z'
    requires |shown| == |w| && shown[0] as int == w[0] as int - 32
    requires forall i :: 0 < i < |w| ==> shown[i] == w[i]
    ensures Capitalize(w) == shown
  {
    assert Capitalize(w)[1..] == w[1..] == shown[1..];
  }

  /** Every other status, the empty one included, is labelled "Unknown" in grey. */
  lemma UnknownStatusLabel(status: string)
    requires status !in KnownStatuses
    ensures GetStatusDisplay(status) == StatusDisplay("#6B7280", "Unknown")
  {
  }

  /** The name shown for the caller: `call.caller.name || 'Unknown Caller'`. */
  function CallerName(name: Option<string>): (shown: string)
    ensures shown != ""
    ensures name.Some? && name.value != "" ==> shown == name.value
    ensures name.None? || name.value == "" ==> shown == "Unknown Caller"
  {
    if name.Some? && name.value != "" then name.value else "Unknown Caller"
  }
}

=== FILE: call_service.dfy ===
/**
 * The mobile app's call service: which call it is currently handling (`currentCallId`),
 * whether a ringtone and an in-call sound are loaded, and what it asks of the audio
 * player and of the signalling socket on each event. Audio and socket calls are recorded
 * as `Effect` values, in the order the service makes them; a failing audio call is not
 * modelled.
 */
module CallService {
  import opened Wrappers

  datatype Effect =
    | PlayRingtone | LoopRingtone | StopRingtone | UnloadRingtone | UnloadSound
    | SendAnswer(callId: string) | SendReject(callId: string) | SendEnd(callId: string)
    | SendMute(callId: string, muted: bool) | CloseSocket

  class Service {
    var currentCallId: Option<string>
    var ringtone: bool  // a ringtone sound is loaded (`this.ringtone !== null`)
    var sound: bool     // an in-call sound is loaded (`this.sound !== null`)

    /** A freshly created service: no call, nothing loaded. */
    constructor ()
      ensures currentCallId == None && !ringtone && !sound
    {
      currentCallId := None;
      ringtone := false;
      sound := false;
    }

    /** `init`, once its ringtone has loaded: the ringtone is available from now on. */
    method Init()
      modifies this
      ensures ringtone && sound == old(sound)
      ensures currentCallId == old(currentCallId)
    {
      ringtone := true;
    }

    /** `handleIncomingCall`: the incoming call becomes the current one and the ringtone loops. */
    method HandleIncomingCall(callId: string) returns (effects: seq<Effect>)
      modifies this
      ensures currentCallId == Some(callId)
      ensures ringtone == old(ringtone) && sound == old(sound)
      ensures effects == if ringtone then [PlayRingtone, LoopRingtone] else []
    {
      currentCallId := Some(callId);
      effects := if ringtone then [PlayRingtone, LoopRingtone] else [];
    }

    /**
     * `handleCallEnded`: an end for the current call clears it, stops the ringtone and
     * unloads the in-call sound; an end for any other call changes nothing.
     */
    method HandleCallEnded(callId: string) returns (effects: seq<Effect>)
      modifies this
      ensures old(currentCallId) == Some(callId) ==>
        && currentCallId == None
        && effects == (if ringtone then [StopRingtone] else []) + (if old(sound) then [UnloadSound] else [])
      ensures old(currentCallId) != Some(callId) ==> currentCallId == old(currentCallId) && effects == []
      ensures ringtone == old(ringtone)
      ensures sound == (old(sound) && old(currentCallId) != Some(callId))
    {
      effects := [];
      if currentCallId == Some(callId) {
        currentCallId := None;
        if ringtone {
          effects := effects + [StopRingtone];
        }
        if sound {
          effects := effects + [UnloadSound];
          sound := false;
        }
      }
    }

    /** `answerCall`: stops the ringtone and sends the answer; the current call is kept. */
    method AnswerCall(callId: string) returns (effects: seq<Effect>)
      ensures effects == (if ringtone then [StopRingtone] else []) + [SendAnswer(callId)]
    {
      effects := (if ringtone then [StopRingtone] else []) + [SendAnswer(callId)];
    }

    /** `rejectCall`: stops the ringtone, sends the rejection and forgets the current call. */
    method RejectCall(callId: string) returns (effects: seq<Effect>)
      modifies this
      ensures currentCallId == None
      ensures ringtone == old(ringtone) && sound == old(sound)
      ensures effects == (if ringtone then [StopRingtone] else []) + [SendReject(callId)]
    {
      effects := (if ringtone then [StopRingtone] else []) + [SendReject(callId)];
      currentCallId := None;
    }

    /** `endCall`: sends the end and forgets the current call, whichever call was named. */
    method EndCall(callId: string) returns (effects: seq<Effect>)
      modifies this
      ensures currentCallId == None
      ensures ringtone == old(ringtone) && sound == old(sound)
      ensures effects == [SendEnd(callId)]
    {
      effects := [SendEnd(callId)];
      currentCallId := None;
    }

    /** `toggleMute`: passes the new mute state for the call to the socket. */
    method ToggleMute(callId: string, muted: bool) returns (effects: seq<Effect>)
      ensures effects == [SendMute(callId, muted)]
    {
      effects := [SendMute(callId, muted)];
    }

    /**
     * `disconnect`: unloads and drops the ringtone and the in-call sound and closes the
     * socket, but keeps the current call id.
     */
    method Disconnect() returns (effects: seq<Effect>)
      modifies this
      ensures !ringtone && !sound
      ensures currentCallId == old(currentCallId)
      ensures effects == (if old(ringtone) then [UnloadRingtone] else [])
                       + (if old(sound) then [UnloadSound] else []) + [CloseSocket]
    {
      effects := [];
      if ringtone {
        effects := effects + [UnloadRingtone];
        ringtone := false;
      }
      if sound {
        effects := effects + [UnloadSound];
        sound := false;
      }
      effects := effects + [CloseSocket];
    }
  }

  /**
   * A ringing call that is answered stays current until the caller hangs up, and the
   * end of an older call in between does not disturb it.
   */
  method AnswerThenRemoteEnd(s: Service, older: string, callId: string) returns (effects: seq<Effect>)
    requires s.ringtone && !s.sound && older != callId
    modifies s
    ensures s.currentCallId == None
    ensures effects == [PlayRingtone, LoopRingtone, StopRingtone, SendAnswer(callId), StopRingtone]
  {
    var e1 := s.HandleIncomingCall(callId);
    var e2 := s.AnswerCall(callId);
    var e3 := s.HandleCallEnded(older);
    assert s.currentCallId == Some(callId);
    var e4 := s.HandleCallEnded(callId);
    effects := e1 + e2 + e3 + e4;
  }
}

=== FILE: js_text.dfy ===
/**
 * The few JavaScript text built-ins the call-handling core relies on, restricted to the
 * values the core gives them: `Number.prototype.toString` on a non-negative integer,
 * `String.prototype.padStart`, `Number(string)` on a clock field and
 * `String.prototype.split` on one separator character.
 */
module JsText {
  import opened Wrappers

  predicate IsDigit(c: char) {
    '0' <= c <= '9'
  }

  predicate AllDigits(s: string) {
    forall i :: 0 <= i < |s| ==> IsDigit(s[i])
  }

  function DigitChar(d: nat): (c: char)
    requires d < 10
    ensures IsDigit(c)
  {
    ('0' as int + d) as char
  }

  function DigitValue(c: char): (d: nat)
    requires IsDigit(c)
    ensures d < 10 && DigitChar(d) == c
  {
    c as int - '0' as int
  }

  function Pow10(k: nat): (p: nat)
    ensures p >= 1
  {
    if k == 0 then 1 else 10 * Pow10(k - 1)
  }

  /** `n.toString()` for a non-negative integer: its shortest decimal numeral. */
  function ToDecimal(n: nat): (s: string)
    ensures |s| >= 1 && AllDigits(s)
    ensures s[0] == '0' ==> n == 0 && s == "0"
    decreases n
  {
    if n < 10 then [DigitChar(n)] else ToDecimal(n / 10) + [DigitChar(n % 10)]
  }

  /** The value a string of decimal digits denotes (the empty string denotes 0). */
  function DigitsValue(s: string): nat
    requires AllDigits(s)
  {
    if s == [] then 0 else DigitsValue(s[..|s| - 1]) * 10 + DigitValue(s[|s| - 1])
  }

  /** Reading a numeral back gives the number it was written from. */
  lemma {:induction false} DecimalRoundTrip(n: nat)
    ensures DigitsValue(ToDecimal(n)) == n
    decreases n
  {
    if n >= 10 {
      var s := ToDecimal(n);
      assert s[..|s| - 1] == ToDecimal(n / 10);
      DecimalRoundTrip(n / 10);
    }
  }

  lemma {:induction false} LeadingDigitNonZero(s: string)
    requires |s| >= 1 && AllDigits(s) && s[0] != '0'
    ensures DigitsValue(s) >= Pow10(|s| - 1)
    decreases |s|
  {
    if |s| > 1 {
      var p := s[..|s| - 1];
      assert p[0] == s[0];
      LeadingDigitNonZero(p);
    }
  }

  /** A digit string without a leading zero is exactly the numeral of its value. */
  lemma {:induction false} CanonicalRoundTrip(s: string)
    requires |s| >= 1 && AllDigits(s) && (s[0] != '0' || |s| == 1)
    ensures ToDecimal(DigitsValue(s)) == s
    decreases |s|
  {
    if |s| > 1 {
      var p := s[..|s| - 1];
      assert p[0] == s[0];
      CanonicalRoundTrip(p);
      LeadingDigitNonZero(p);
      var v := DigitsValue(s);
      var d := DigitValue(s[|s| - 1]);
      assert v == DigitsValue(p) * 10 + d;
      assert v / 10 == DigitsValue(p) && v % 10 == d;
      assert s == p + [s[|s| - 1]];
    }
  }

  /** Distinct numbers have distinct numerals. */
  lemma DecimalInjective(a: nat, b: nat)
    ensures ToDecimal(a) == ToDecimal(b) <==> a == b
  {
    DecimalRoundTrip(a);
    DecimalRoundTrip(b);
  }

  /** A numeral has at most k digits exactly when the number is below 10^k. */
  lemma {:induction false} DecimalLength(n: nat, k: nat)
    requires k >= 1
    ensures |ToDecimal(n)| <= k <==> n < Pow10(k)
    decreases n
  {
    if n >= 10 {
      if k == 1 {
        assert |ToDecimal(n)| == |ToDecimal(n / 10)| + 1;
      } else {
        DecimalLength(n / 10, k - 1);
        assert n / 10 < Pow10(k - 1) <==> n < 10 * Pow10(k - 1);
      }
    } else {
      assert Pow10(k) >= 10 by { assert Pow10(k) == 10 * Pow10(k - 1); }
    }
  }

  /** `k` copies of `c`. */
  function Repeat(c: char, k: nat): (r: string)
    ensures |r| == k && forall i :: 0 <= i < k ==> r[i] == c
  {
    if k == 0 then [] else [c] + Repeat(c, k - 1)
  }

  /** `s.padStart(width, c)` with a one-character pad string. */
  function PadStart(s: string, width: nat, c: char): (r: string)
    ensures |r| == if |s| < width then width else |s|
    ensures r[|r| - |s|..] == s
    ensures forall i :: 0 <= i < |r| - |s| ==> r[i] == c
  {
    if |s| >= width then s else Repeat(c, width - |s|) + s
  }

  /** `n.toString().padStart(2, '0')`, the two-character clock field. */
  function Pad2(n: nat): string {
    PadStart(ToDecimal(n), 2, '0')
  }

  /** Leading zeros do not change the value of a digit string. */
  lemma {:induction false} LeadingZerosValue(z: string, s: string)
    requires AllDigits(s) && forall i :: 0 <= i < |z| ==> z[i] == '0'
    ensures AllDigits(z + s) && DigitsValue(z + s) == DigitsValue(s)
    decreases |s|
  {
    if s == [] {
      assert z + s == z;
      AllZerosValue(z);
    } else {
      var zs := z + s;
      assert zs[..|zs| - 1] == z + s[..|s| - 1];
      LeadingZerosValue(z, s[..|s| - 1]);
    }
  }

  lemma {:induction false} AllZerosValue(z: string)
    requires forall i :: 0 <= i < |z| ==> z[i] == '0'
    ensures AllDigits(z) && DigitsValue(z) == 0
    decreases |z|
  {
    if z != [] {
      AllZerosValue(z[..|z| - 1]);
    }
  }

  /**
   * The two-character field reads back as the number it shows, has no ':' in it, is
   * exactly two characters for values below 100 and is never truncated above that.
   */
  lemma Pad2Facts(n: nat)
    ensures AllDigits(Pad2(n)) && DigitsValue(Pad2(n)) == n
    ensures |Pad2(n)| >= 2
    ensures |Pad2(n)| == if n < 100 then 2 else |ToDecimal(n)|
    ensures ':' !in Pad2(n)
  {
    Pad2Value(n);
    Pad2Length(n);
  }

  lemma Pad2Value(n: nat)
    ensures AllDigits(Pad2(n)) && DigitsValue(Pad2(n)) == n
  {
    var d := ToDecimal(n);
    var r := Pad2(n);
    var z := r[..|r| - |d|];
    assert r == z + d;
    LeadingZerosValue(z, d);
    DecimalRoundTrip(n);
  }

  /** From 100 on, the field is the full numeral of three or more digits. */
  lemma Pad2Wide(n: nat)
    requires n >= 100
    ensures |Pad2(n)| >= 3
  {
    Pad2Length(n);
    DecimalLength(n, 2);
    assert Pow10(2) == 100 by {
      assert Pow10(1) == 10 * Pow10(0);
    }
  }

  lemma Pad2Length(n: nat)
    ensures |Pad2(n)| == if n < 100 then 2 else |ToDecimal(n)|
  {
    var d := ToDecimal(n);
    assert Pow10(2) == 100 by {
      assert Pow10(1) == 10 * Pow10(0);
    }
    DecimalLength(n, 2);
    assert |d| <= 2 <==> n < 100;
  }

  /**
   * Two fields joined by ':' where the second has two characters: the colon sits three
   * characters from the end, the second field after it and the first field before it.
   */
  lemma JoinedFields(a: string, b: string)
    requires |b| == 2
    ensures var r := a + ":" + b;
      && |r| == |a| + 3 && r[|r| - 3] == ':'
      && r[|r| - 2..] == b && r[..|r| - 3] == a
  {
    var r := a + ":" + b;
    assert r[|r| - 2..] == b;
    assert r[..|r| - 3] == a;
  }

  /**
   * `Number(s)` on a clock field: "" is 0 and a digit string its value. Anything else is
   * treated as NaN here, although `Number` reads some other strings (" 9", "9.5") as numbers.
   */
  function ParseNumber(s: string): (v: Option<nat>)
    ensures v.Some? <==> AllDigits(s)
  {
    if AllDigits(s) then Some(DigitsValue(s)) else None
  }

  /** `s.split(sep)`: the pieces between occurrences of `sep`, in order. */
  function Split(s: string, sep: char): (parts: seq<string>)
    ensures |parts| >= 1
    ensures forall i :: 0 <= i < |parts| ==> sep !in parts[i]
    decreases |s|
  {
    if sep !in s then [s]
    else
      var i := IndexOf(s, sep);
      [s[..i]] + Split(s[i + 1..], sep)
  }

  function IndexOf(s: string, c: char): (i: nat)
    requires c in s
    ensures i < |s| && s[i] == c && c !in s[..i]
  {
    if s[0] == c then 0 else 1 + IndexOf(s[1..], c)
  }

  /** `parts.join(sep)`. */
  function Join(parts: seq<string>, sep: char): string
    requires |parts| >= 1
  {
    if |parts| == 1 then parts[0] else parts[0] + [sep] + Join(parts[1..], sep)
  }

  /** Splitting loses nothing: joining the pieces again gives the original string. */
  lemma {:induction false} SplitJoin(s: string, sep: char)
    ensures Join(Split(s, sep), sep) == s
    decreases |s|
  {
    if sep in s {
      var i := IndexOf(s, sep);
      var rest := s[i + 1..];
      SplitJoin(rest, sep);
      var parts := Split(s, sep);
      assert parts == [s[..i]] + Split(rest, sep);
      assert parts[1..] == Split(rest, sep);
      assert Join(parts, sep) == s[..i] + [sep] + Join(Split(rest, sep), sep);
      assert s == s[..i] + [sep] + rest;
    }
  }

  /** A piece free of the separator, then the separator, splits off as the first piece. */
  lemma SplitFirst(a: string, sep: char, b: string)
    requires sep !in a
    ensures Split(a + [sep] + b, sep) == [a] + Split(b, sep)
  {
    var s := a + [sep] + b;
    assert s[|a|] == sep;
    var i := IndexOf(s, sep);
    assert i == |a|;
    assert s[..i] == a && s[i + 1..] == b;
  }

  /** Two separator-free pieces joined by the separator split back into exactly those pieces. */
  lemma SplitPair(a: string, sep: char, b: string)
    requires sep !in a && sep !in b
    ensures Split(a + [sep] + b, sep) == [a, b]
  {
    SplitFirst(a, sep, b);
  }

  /**
   * The text `Pad2(x) + ":" + Pad2(y)` splits on ':' into its two fields, and each field
   * reads back through `Number` as the number it was written from.
   */
  lemma ClockTextReadsBack(x: nat, y: nat)
    ensures var parts := Split(Pad2(x) + ":" + Pad2(y), ':');
      && parts == [Pad2(x), Pad2(y)]
      && ParseNumber(parts[0]) == Some(x)
      && ParseNumber(parts[1]) == Some(y)
  {
    Pad2Facts(x);
    Pad2Facts(y);
    SplitPair(Pad2(x), ':', Pad2(y));
  }
}

=== FILE: routing_examples.dfy ===
/**
 * Worked examples of the inbound-call routing decisions, each an instance of the general
 * lemmas of `TwilioRoutes`.
 */
module RoutingExamples {
  import opened Wrappers
  import JsText
  import opened TwilioRoutes

  /** The other route kinds a widget can name are not dialled: they get the apology. */
  lemma NamedRoutesApologise()
    ensures HandleRoute("voicemail") == Say(Apology)
    ensures HandleRoute("aibot") == Say(Apology)
    ensures HandleRoute("call2app") == Say(Apology)
    ensures HandleRoute("not-a-number") == Say(Apology)
  {
    assert !IsDialNumber("voicemail") by {
      assert !JsText.IsDigit("voicemail"[0]);
    }
    assert !IsDialNumber("aibot") by {
      assert !JsText.IsDigit("aibot"[0]);
    }
    assert !IsDialNumber("call2app") by {
      assert !JsText.IsDigit("call2app"[0]);
    }
    assert !IsDialNumber("not-a-number") by {
      assert !JsText.IsDigit("not-a-number"[0]);
    }
  }

  /** Examples: an E.164 number is dialled, a SIP URI is dialled as SIP. */
  lemma DialExamples()
    ensures HandleRoute("+14155551234") == DialNumber("+14155551234")
    ensures HandleRoute("sip:foo@bar.sip.example.com") == DialSip("sip:foo@bar.sip.example.com")
  {
    var route := "+14155551234";
    assert !("sip:" <= route) by {
      assert route[0] != "sip:"[0];
    }
    var digits := DialDigits(route);
    assert digits == "14155551234";
    assert JsText.AllDigits(digits) by {
      forall i | 0 <= i < |digits| ensures JsText.IsDigit(digits[i]) {
      }
    }
  }

  /**
   * An "aibot" default without business hours is chosen whatever the time (and, not
   * being dialable, is answered with the apology).
   */
  lemma AlwaysDefaultWithoutHours(localTime: Option<string>, weekday: int)
    ensures var w := Widget(Some(Routing(Some("aibot"), None, None)), None);
      && SelectRoute(w, localTime, weekday) == Some("aibot")
      && VoiceHandler(Some(TwilioSettings("AC1", "tok")), true, Some(w), localTime, weekday)
           == Twiml(Say(Apology))
  {
    assert !IsDialNumber("aibot") by {
      assert !JsText.IsDigit("aibot"[0]);
    }
  }

  /**
   * A "siptrunk" default with a window that excludes Sunday (0): on a Sunday the call goes
   * to the "voicemail" fallback, and fails open to "siptrunk" when no fallback is set.
   */
  lemma SundayGoesToFallback(hours: BusinessHours, localTime: string)
    requires 0 !in hours.days
    ensures SelectRoute(Widget(Some(Routing(Some("siptrunk"), Some("voicemail"), Some(hours))), None),
                        Some(localTime), 0) == Some("voicemail")
    ensures SelectRoute(Widget(Some(Routing(Some("siptrunk"), None, Some(hours))), None),
                        Some(localTime), 0) == Some("siptrunk")
  {
  }
}

=== FILE: signaling.dfy ===
/**
 * The signalling relay of the server: process-wide counters and the table of active call
 * sessions, changed by the connect, `signal` (`call-start`, `call-end`) and disconnect
 * events of socket connections.
 *
 * The table is a JavaScript `Map`, which iterates in insertion order; "the first session
 * listing the socket" depends on that order, so the table is modelled as its entries
 * (`calls`) together with its keys in insertion order (`order`). Overwriting an existing
 * key keeps its place; deleting a key removes it from the order.
 *
 * Each handler runs as one atomic step. The clock is a parameter (`now`, milliseconds),
 * and the timestamps the server renders as ISO strings are kept as those milliseconds.
 */
module Signaling {
  import opened Wrappers
  import JsText

  datatype ServerStats = ServerStats(
    totalConnections: int,
    activeConnections: int,
    activeCalls: int,
    totalCalls: int,
    lastConnection: Option<int>,
    lastDisconnection: Option<int>,
    uptime: int,
    startTime: int)

  datatype CallSession = CallSession(id: string, startTime: int, participants: seq<string>)

  /** What the relay emits back to the socket that sent the event. */
  datatype Event = CallStatus(status: string, message: string) | CallEstablished | CallEnded

  /** The relay's state: the `stats` record and the `activeCalls` map. */
  datatype Relay = Relay(stats: ServerStats, order: seq<string>, calls: map<string, CallSession>)

  /** A relay state after an event, with the events emitted to the sender, in order. */
  datatype Outcome = Outcome(next: Relay, emitted: seq<Event>)

  /** A socket event, in the order the relay receives them. */
  datatype SocketEvent =
    | Connect(at: nat)
    | Signal(sock: string, kind: string, at: nat)
    | Disconnect(sock: string, at: nat)

  // ---------------------------------------------------------------- the session table

  predicate Distinct(s: seq<string>) {
    forall i, j :: 0 <= i < j < |s| ==> s[i] != s[j]
  }

  /**
   * A well-formed table: the key order lists each key of the map once, and every
   * session is stored under its own id and has one participant.
   */
  ghost predicate WellKeyed(order: seq<string>, calls: map<string, CallSession>) {
    && Distinct(order)
    && (forall k :: k in calls <==> k in order)
    && (forall k :: k in calls ==> calls[k].id == k && |calls[k].participants| == 1)
  }

  /**
   * A well-formed relay: a well-formed table, an active-call counter between 0 and the
   * number of calls ever started, and no more sessions than calls were started.
   */
  ghost predicate Inv(r: Relay) {
    && WellKeyed(r.order, r.calls)
    && 0 <= r.stats.activeCalls <= r.stats.totalCalls
    && |r.order| <= r.stats.totalCalls
  }

  /** Deleting the key at position `i` keeps the table well formed. */
  lemma DeleteKeepsWellKeyed(order: seq<string>, calls: map<string, CallSession>, i: nat)
    requires WellKeyed(order, calls) && i < |order|
    ensures WellKeyed(order[..i] + order[i + 1..], calls - {order[i]})
  {
    var key := order[i];
    var order' := order[..i] + order[i + 1..];
    forall k ensures k in order' <==> k in order && k != key {
      if k in order' {
        var j :| 0 <= j < |order'| && order'[j] == k;
        if j < i { assert order[j] == k; } else { assert order[j + 1] == k; }
      }
      if k in order && k != key {
        var j :| 0 <= j < |order| && order[j] == k;
        if j < i { assert order'[j] == k; } else { assert order'[j - 1] == k; }
      }
    }
  }

  /** Setting a session under its own id keeps the table well formed, appending a new key last. */
  lemma SetKeepsWellKeyed(order: seq<string>, calls: map<string, CallSession>, s: CallSession)
    requires WellKeyed(order, calls) && |s.participants| == 1
    ensures var order' := if s.id in calls then order else order + [s.id];
      WellKeyed(order', calls[s.id := s])
  {
    if s.id !in calls {
      assert s.id !in order;
      assert forall k :: k in order + [s.id] <==> k in order || k == s.id;
    }
  }

  /** The state at process start: all counters zero, no sessions. */
  function Initial(startTime: int): (r: Relay)
    ensures Inv(r)
  {
    Relay(ServerStats(0, 0, 0, 0, None, None, 0, startTime), [], map[])
  }

  /** A session listing `sock` among its participants. */
  predicate Lists(s: CallSession, sock: string) {
    sock in s.participants
  }

  /**
   * The position, in insertion order, of the first session listing `sock`: the session a
   * `for...of` scan over the map with `break` on the first match finds.
   */
  function FirstSessionOf(order: seq<string>, calls: map<string, CallSession>, sock: string): (i: Option<nat>)
    requires forall j :: 0 <= j < |order| ==> order[j] in calls
    ensures i.Some? ==> i.value < |order| && Lists(calls[order[i.value]], sock)
    ensures i.Some? ==> forall j :: 0 <= j < i.value ==> !Lists(calls[order[j]], sock)
    ensures i.None? ==> forall j :: 0 <= j < |order| ==> !Lists(calls[order[j]], sock)
    decreases |order|
  {
    if order == [] then None
    else if Lists(calls[order[0]], sock) then Some(0)
    else match FirstSessionOf(order[1..], calls, sock)
      case None => None
      case Some(i) => Some(i + 1)
  }

  /** `Map.prototype.delete` of the key at position `i`. */
  function RemoveAt(r: Relay, i: nat): (r': Relay)
    requires Inv(r) && i < |r.order|
    ensures Inv(r')
    ensures r'.stats == r.stats
    ensures r'.calls.Keys == r.calls.Keys - {r.order[i]}
    ensures forall k :: k in r'.calls ==> r'.calls[k] == r.calls[k]
  {
    DeleteKeepsWellKeyed(r.order, r.calls, i);
    Relay(r.stats, r.order[..i] + r.order[i + 1..], r.calls - {r.order[i]})
  }

  // ---------------------------------------------------------------- the handlers

  /** The id a `call-start` at time `now` gets: `` `call-${Date.now()}` ``. */
  function CallId(now: nat): (id: string)
    ensures |id| > 5 && id[..5] == "call-" && JsText.AllDigits(id[5..])
    ensures JsText.DigitsValue(id[5..]) == now
  {
    JsText.DecimalRoundTrip(now);
    "call-" + JsText.ToDecimal(now)
  }

  /** Call-starts in different milliseconds get different ids; in the same millisecond, the same id. */
  lemma CallIdInjective(a: nat, b: nat)
    ensures CallId(a) == CallId(b) <==> a == b
  {
    if CallId(a) == CallId(b) {
      assert CallId(a)[5..] == JsText.ToDecimal(a);
      assert CallId(b)[5..] == JsText.ToDecimal(b);
      JsText.DecimalInjective(a, b);
    }
  }

  /** `Math.max(0, n - 1)`. */
  function DecrementClamped(n: int): int {
    if n - 1 > 0 then n - 1 else 0
  }

  /** The `connection` handler: one more connection in total and one more active. */
  function OnConnect(r: Relay, now: int): (r': Relay)
    ensures r'.order == r.order && r'.calls == r.calls
    ensures r'.stats == r.stats.(
      totalConnections := r.stats.totalConnections + 1,
      activeConnections := r.stats.activeConnections + 1,
      lastConnection := Some(now))
    ensures Inv(r) ==> Inv(r')
  {
    r.(stats := r.stats.(
      totalConnections := r.stats.totalConnections + 1,
      activeConnections := r.stats.activeConnections + 1,
      lastConnection := Some(now)))
  }

  /**
   * `signal` with `call-start`: both call counters go up and the session
   * `call-<now>` with the sender as sole participant is set in the table, replacing
   * any session of the same id in its place. The sender is told "connecting", then
   * that the call is established.
   */
  function StartCall(r: Relay, sock: string, now: nat): (o: Outcome)
    requires Inv(r)
    ensures Inv(o.next)
  {
    var id := CallId(now);
    var stats := r.stats.(totalCalls := r.stats.totalCalls + 1, activeCalls := r.stats.activeCalls + 1);
    var order := if id in r.calls then r.order else r.order + [id];
    SetKeepsWellKeyed(r.order, r.calls, CallSession(id, now, [sock]));
    Outcome(
      Relay(stats, order, r.calls[id := CallSession(id, now, [sock])]),
      [CallStatus("connecting", "Connecting your call..."), CallEstablished])
  }

  /**
   * `signal` with `call-end`: the active-call counter goes down (never below 0) whether
   * or not the sender has a session; the first session listing the sender, if any, is
   * deleted and the sender is told the call ended.
   */
  function EndCall(r: Relay, sock: string): (o: Outcome)
    requires Inv(r)
    ensures Inv(o.next)
  {
    var counted := r.(stats := r.stats.(activeCalls := DecrementClamped(r.stats.activeCalls)));
    match FirstSessionOf(r.order, r.calls, sock)
    case None => Outcome(counted, [])
    case Some(i) => Outcome(RemoveAt(counted, i), [CallEnded])
  }

  /** The `signal` handler: dispatch on the signal's type; any other type is ignored. */
  function OnSignal(r: Relay, sock: string, kind: string, now: nat): (o: Outcome)
    requires Inv(r)
    ensures Inv(o.next)
  {
    if kind == "call-start" then StartCall(r, sock, now)
    else if kind == "call-end" then EndCall(r, sock)
    else Outcome(r, [])
  }

  /**
   * The `disconnect` handler: one connection fewer; the first session listing the socket,
   * if any, is deleted and only then does the active-call counter go down.
   */
  function OnDisconnect(r: Relay, sock: string, now: int): (r': Relay)
    requires Inv(r)
    ensures Inv(r')
  {
    var r1 := r.(stats := r.stats.(
      activeConnections := r.stats.activeConnections - 1,
      lastDisconnection := Some(now)));
    match FirstSessionOf(r.order, r.calls, sock)
    case None => r1
    case Some(i) =>
      var r2 := RemoveAt(r1, i);
      r2.(stats := r2.stats.(activeCalls := DecrementClamped(r2.stats.activeCalls)))
  }

  /**
   * `getServerStats`: a copy of the counters with `uptime` set to the whole seconds
   * since start (`Math.floor`, also for a clock that went backwards).
   */
  function ServerStatsAt(r: Relay, now: int): (s: ServerStats)
    ensures s == r.stats.(uptime := s.uptime)
    ensures s.uptime * 1000 <= now - r.stats.startTime < (s.uptime + 1) * 1000
  {
    r.stats.(uptime := (now - r.stats.startTime) / 1000)
  }

  /** The echo timer of a started call keeps emitting only while its id is in the table. */
  function EchoTick(r: Relay, callId: string): (emitted: seq<Event>)
    ensures emitted != [] <==> callId in r.calls
  {
    if callId in r.calls then [CallStatus("echo", "Echo test message")] else []
  }

  // ---------------------------------------------------------------- properties of one event

  /** The `signal` handler runs the `call-start` and `call-end` branches on those types and ignores any other. */
  lemma SignalDispatch(r: Relay, sock: string, kind: string, now: nat)
    requires Inv(r)
    ensures OnSignal(r, sock, "call-start", now) == StartCall(r, sock, now)
    ensures OnSignal(r, sock, "call-end", now) == EndCall(r, sock)
    ensures kind != "call-start" && kind != "call-end" ==> OnSignal(r, sock, kind, now) == Outcome(r, [])
  {
    assert "call-end" != "call-start" by {
      assert "call-end"[5] != "call-start"[5];
    }
  }

  /**
   * `call-start` counts one more call in total and one more active call, and maps the
   * call id to a session whose only participant is the sender, overwriting any session
   * of that id; no other session changes and the connection counters stay.
   */
  lemma StartCallFacts(r: Relay, sock: string, now: nat)
    requires Inv(r)
    ensures var o := OnSignal(r, sock, "call-start", now);
      && o.next.stats == r.stats.(totalCalls := r.stats.totalCalls + 1, activeCalls := r.stats.activeCalls + 1)
      && o.next.calls.Keys == r.calls.Keys + {CallId(now)}
      && o.next.calls[CallId(now)] == CallSession(CallId(now), now, [sock])
      && (forall k :: k in r.calls && k != CallId(now) ==> o.next.calls[k] == r.calls[k])
      && (CallId(now) in r.calls ==> o.next.order == r.order)
      && o.emitted == [CallStatus("connecting", "Connecting your call..."), CallEstablished]
  {
  }

  /**
   * `call-end` always takes one off the active-call counter (stopping at 0), even when
   * the sender has no session, and leaves the other counters.
   */
  lemma EndCallCounters(r: Relay, sock: string)
    requires Inv(r)
    ensures var o := EndCall(r, sock);
      && o.next.stats == r.stats.(activeCalls := DecrementClamped(r.stats.activeCalls))
      && o.next.stats.activeCalls >= 0
  {
    match FirstSessionOf(r.order, r.calls, sock)
    case None =>
    case Some(i) => EndCallAt(r, sock, i);
  }

  /**
   * `call-end` emits `call-ended` exactly when some session lists the sender, and
   * nothing otherwise.
   */
  lemma EndCallEmits(r: Relay, sock: string)
    requires Inv(r)
    ensures var o := EndCall(r, sock);
      && (o.emitted == [CallEnded] <==> exists k :: k in r.calls && Lists(r.calls[k], sock))
      && (o.emitted == [] <==> !exists k :: k in r.calls && Lists(r.calls[k], sock))
  {
    match FirstSessionOf(r.order, r.calls, sock)
    case None =>
      NoSessionLists(r.order, r.calls, sock);
    case Some(i) =>
      EndCallAt(r, sock, i);
  }

  /**
   * `call-end` deletes at most one session, the first listing the sender, and leaves the
   * table as it was when nothing was emitted. Sessions not listing the sender are untouched.
   */
  lemma EndCallSessions(r: Relay, sock: string)
    requires Inv(r)
    ensures var o := EndCall(r, sock);
      && o.next.calls.Keys <= r.calls.Keys
      && |r.calls.Keys - o.next.calls.Keys| <= 1
      && (forall k :: k in r.calls && !Lists(r.calls[k], sock) ==> k in o.next.calls && o.next.calls[k] == r.calls[k])
      && (forall k :: k in o.next.calls ==> o.next.calls[k] == r.calls[k])
      && (o.emitted == [] ==> o.next.calls == r.calls && o.next.order == r.order)
  {
    match FirstSessionOf(r.order, r.calls, sock)
    case None =>
      EndCallNone(r, sock);
    case Some(i) =>
      EndCallAt(r, sock, i);
      assert Lists(r.calls[r.order[i]], sock);
      RemoveKey(r.calls, r.order[i]);
  }

  /** Deleting one key from the table removes that key alone and keeps every other entry. */
  lemma RemoveKey(calls: map<string, CallSession>, key: string)
    requires key in calls
    ensures (calls - {key}).Keys <= calls.Keys
    ensures calls.Keys - (calls - {key}).Keys == {key}
    ensures forall k :: k in calls && k != key ==> k in calls - {key} && (calls - {key})[k] == calls[k]
  {
  }

  /** `call-end` when no session lists the sender. */
  lemma EndCallNone(r: Relay, sock: string)
    requires Inv(r)
    requires FirstSessionOf(r.order, r.calls, sock).None?
    ensures var o := EndCall(r, sock);
      && o.next.order == r.order
      && o.next.calls == r.calls
      && o.emitted == []
  {
  }

  /** When the scan finds nothing, no session in the table lists the socket. */
  lemma NoSessionLists(order: seq<string>, calls: map<string, CallSession>, sock: string)
    requires WellKeyed(order, calls)
    requires FirstSessionOf(order, calls, sock).None?
    ensures forall k :: k in calls ==> !Lists(calls[k], sock)
  {
    forall k | k in calls ensures !Lists(calls[k], sock) {
      var j :| 0 <= j < |order| && order[j] == k;
    }
  }


  /**
   * Disconnect takes exactly one off the active connections and records the time; the
   * totals stay, and the active-call counter goes down (never below 0) only when a
   * session listing the socket was deleted.
   */
  lemma DisconnectCounters(r: Relay, sock: string, now: int)
    requires Inv(r)
    ensures var r' := OnDisconnect(r, sock, now);
      && r'.stats == r.stats.(
           activeConnections := r.stats.activeConnections - 1,
           lastDisconnection := Some(now),
           activeCalls := r'.stats.activeCalls)
      && r'.stats.activeCalls == (if r'.calls.Keys == r.calls.Keys then r.stats.activeCalls else DecrementClamped(r.stats.activeCalls))
  {
    match FirstSessionOf(r.order, r.calls, sock)
    case None =>
    case Some(i) =>
      assert r.order[i] !in OnDisconnect(r, sock, now).calls;
  }

  /** Disconnect deletes a session exactly when some session lists the socket. */
  lemma DisconnectFindsSession(r: Relay, sock: string, now: int)
    requires Inv(r)
    ensures var r' := OnDisconnect(r, sock, now);
      r'.calls.Keys == r.calls.Keys <==> !exists k :: k in r.calls && Lists(r.calls[k], sock)
  {
    match FirstSessionOf(r.order, r.calls, sock)
    case None =>
      NoSessionLists(r.order, r.calls, sock);
    case Some(i) =>
      DisconnectAt(r, sock, now, i);
  }

  /**
   * Disconnect deletes at most one session, the first listing the socket; sessions not
   * listing it are untouched.
   */
  lemma DisconnectSessions(r: Relay, sock: string, now: int)
    requires Inv(r)
    ensures var r' := OnDisconnect(r, sock, now);
      && r'.calls.Keys <= r.calls.Keys
      && |r.calls.Keys - r'.calls.Keys| <= 1
      && (forall k :: k in r.calls && !Lists(r.calls[k], sock) ==> k in r'.calls)
      && (forall k :: k in r'.calls ==> r'.calls[k] == r.calls[k])
  {
    match FirstSessionOf(r.order, r.calls, sock)
    case None =>
      DisconnectNone(r, sock, now);
    case Some(i) =>
      DisconnectAt(r, sock, now, i);
      RemoveKey(r.calls, r.order[i]);
  }

  /** Disconnect when no session lists the socket. */
  lemma DisconnectNone(r: Relay, sock: string, now: int)
    requires Inv(r)
    requires FirstSessionOf(r.order, r.calls, sock).None?
    ensures OnDisconnect(r, sock, now).calls == r.calls
  {
  }

  /** Disconnect when the first session listing the socket is at position `i`. */
  lemma DisconnectAt(r: Relay, sock: string, now: int, i: nat)
    requires Inv(r)
    requires FirstSessionOf(r.order, r.calls, sock) == Some(i)
    ensures i < |r.order| && Lists(r.calls[r.order[i]], sock)
    ensures OnDisconnect(r, sock, now).calls == r.calls - {r.order[i]}
  {
  }


  // ---------------------------------------------------------------- behaviour kept exactly as the code has it

  /**
   * Ending a call restores the table: a `call-start` from a socket that has no session,
   * at a millisecond whose id is unused, followed by its `call-end`, leaves the table
   * (entries and order) and the active-call counter as they were, with one more call in
   * total.
   */
  lemma StartEndRoundTrip(r: Relay, sock: string, now: nat)
    requires Inv(r)
    requires forall k :: k in r.calls ==> !Lists(r.calls[k], sock)
    requires CallId(now) !in r.calls
    ensures var r1 := StartCall(r, sock, now).next;
      var o := EndCall(r1, sock);
      && o.next.order == r.order
      && o.next.calls == r.calls
      && o.next.stats == r.stats.(totalCalls := r.stats.totalCalls + 1)
      && o.emitted == [CallEnded]
  {
    var n := |r.order|;
    var r1 := StartCall(r, sock, now).next;
    StartCallNext(r, sock, now);
    StartedSessionIsFirst(r, sock, now);
    EndCallAt(r1, sock, n);
    UndoAppend(r.order, CallId(now));
    UndoSet(r.calls, CallId(now), CallSession(CallId(now), now, [sock]));
  }

  lemma UndoAppend(s: seq<string>, x: string)
    ensures var s' := s + [x]; s'[..|s|] + s'[|s| + 1..] == s
  {
    var s' := s + [x];
    assert s'[..|s|] == s;
  }

  lemma UndoSet(m: map<string, CallSession>, k: string, v: CallSession)
    requires k !in m
    ensures m[k := v] - {k} == m
  {
  }

  /** `call-end` when the first session listing the sender is at position `i`. */
  lemma EndCallAt(r: Relay, sock: string, i: nat)
    requires Inv(r)
    requires FirstSessionOf(r.order, r.calls, sock) == Some(i)
    ensures i < |r.order|
    ensures var o := EndCall(r, sock);
      && o.next.order == r.order[..i] + r.order[i + 1..]
      && o.next.calls == r.calls - {r.order[i]}
      && o.next.stats == r.stats.(activeCalls := DecrementClamped(r.stats.activeCalls))
      && o.emitted == [CallEnded]
  {
  }

  /** The session a `call-start` adds at a fresh id goes last, and is the first listing a sender that had none. */
  lemma StartedSessionIsFirst(r: Relay, sock: string, now: nat)
    requires Inv(r)
    requires forall k :: k in r.calls ==> !Lists(r.calls[k], sock)
    requires CallId(now) !in r.calls
    ensures var r1 := StartCall(r, sock, now).next;
      && r1.order == r.order + [CallId(now)]
      && (forall j :: 0 <= j < |r1.order| ==> r1.order[j] in r1.calls)
      && FirstSessionOf(r1.order, r1.calls, sock) == Some(|r.order|)
  {
    var n := |r.order|;
    var id := CallId(now);
    var r1 := StartCall(r, sock, now).next;
    StartCallNext(r, sock, now);
    forall j | 0 <= j < n + 1 ensures r1.order[j] in r1.calls {
      if j < n {
        assert r1.order[j] == r.order[j];
      }
    }
    forall j | 0 <= j < n ensures !Lists(r1.calls[r1.order[j]], sock) {
      assert r1.order[j] == r.order[j] != id;
    }
    FirstMatchAt(r1.order, r1.calls, sock, n);
  }

  /** The relay after a `call-start` at a fresh id: the id appended, its session stored. */
  lemma StartCallNext(r: Relay, sock: string, now: nat)
    requires Inv(r)
    requires CallId(now) !in r.calls
    ensures var r1 := StartCall(r, sock, now).next;
      && r1.order == r.order + [CallId(now)]
      && r1.calls == r.calls[CallId(now) := CallSession(CallId(now), now, [sock])]
      && r1.stats == r.stats.(totalCalls := r.stats.totalCalls + 1, activeCalls := r.stats.activeCalls + 1)
      && (forall k :: k in r.calls ==> k in r.order)
  {
  }

  /** The scan stops at `n` when the session there is the first to list the socket. */
  lemma FirstMatchAt(order: seq<string>, calls: map<string, CallSession>, sock: string, n: nat)
    requires forall j :: 0 <= j < |order| ==> order[j] in calls
    requires n < |order| && Lists(calls[order[n]], sock)
    requires forall j :: 0 <= j < n ==> !Lists(calls[order[j]], sock)
    ensures FirstSessionOf(order, calls, sock) == Some(n)
  {
  }

  /**
   * The active-call counter and the table can drift apart: a `call-end` from a socket
   * without a session still decrements the counter, so a relay whose counter matched
   * its table no longer does.
   */
  lemma CounterDrifts(r: Relay, sock: string, now: nat)
    requires Inv(r)
    requires forall k :: k in r.calls ==> !Lists(r.calls[k], sock)
    requires r.stats.activeCalls == |r.calls| > 0
    ensures var o := OnSignal(r, sock, "call-end", now);
      && o.next.calls == r.calls
      && o.emitted == []
      && o.next.stats.activeCalls == |o.next.calls| - 1
  {
    SignalDispatch(r, sock, "", now);
    EndCallSessions(r, sock);
    EndCallEmits(r, sock);
    EndCallCounters(r, sock);
  }

  /**
   * Two `call-start`s in the same millisecond share one id: the second overwrites the
   * first session, so both are counted but the table holds only the second caller's.
   */
  lemma SameMillisecondOverwrites(r: Relay, a: string, b: string, now: nat)
    requires Inv(r)
    ensures var r1 := OnSignal(r, a, "call-start", now).next;
      var r2 := OnSignal(r1, b, "call-start", now).next;
      && r2.stats.totalCalls == r.stats.totalCalls + 2
      && r2.stats.activeCalls == r.stats.activeCalls + 2
      && r2.calls.Keys == r.calls.Keys + {CallId(now)}
      && r2.calls[CallId(now)].participants == [b]
      && (a != b ==> forall k :: k in r2.calls && k !in r.calls ==> !Lists(r2.calls[k], a))
  {
    var r1 := OnSignal(r, a, "call-start", now).next;
    StartCallFacts(r, a, now);
    StartCallFacts(r1, b, now);
  }

  /**
   * A socket listed in two sessions keeps one of them after it disconnects: only the
   * first is cleaned up.
   */
  lemma DisconnectLeavesLaterSession(r: Relay, sock: string, k1: string, k2: string, now: nat)
    requires Inv(r)
    requires k1 in r.calls && k2 in r.calls && k1 != k2
    requires Lists(r.calls[k1], sock) && Lists(r.calls[k2], sock)
    ensures var r' := OnDisconnect(r, sock, now);
      exists k :: k in r'.calls && Lists(r'.calls[k], sock)
  {
    var r' := OnDisconnect(r, sock, now);
    DisconnectSessions(r, sock, now);
    if k1 in r'.calls {
      assert Lists(r'.calls[k1], sock);
    } else {
      assert Lists(r'.calls[k2], sock);
    }
  }

  // ---------------------------------------------------------------- runs of events

  /** The relay after one socket event. */
  function Step(r: Relay, e: SocketEvent): (r': Relay)
    requires Inv(r)
    ensures Inv(r')
  {
    match e
    case Connect(at) => OnConnect(r, at)
    case Signal(sock, kind, at) => OnSignal(r, sock, kind, at).next
    case Disconnect(sock, at) => OnDisconnect(r, sock, at)
  }

  /** The relay after a sequence of socket events; it stays well formed throughout. */
  function Run(r: Relay, t: seq<SocketEvent>): (r': Relay)
    requires Inv(r)
    ensures Inv(r')
    decreases |t|
  {
    if t == [] then r else Run(Step(r, t[0]), t[1..])
  }

  function Connects(t: seq<SocketEvent>): nat {
    if t == [] then 0 else (if t[0].Connect? then 1 else 0) + Connects(t[1..])
  }

  function Disconnects(t: seq<SocketEvent>): nat {
    if t == [] then 0 else (if t[0].Disconnect? then 1 else 0) + Disconnects(t[1..])
  }

  function CallStarts(t: seq<SocketEvent>): nat {
    if t == [] then 0 else (if t[0].Signal? && t[0].kind == "call-start" then 1 else 0) + CallStarts(t[1..])
  }

  /**
   * Over any run, the totals count exactly the connections and call-starts in it, the
   * active connections are the connects minus the disconnects, the process start time
   * is untouched, and the active-call counter never goes negative.
   */
  lemma {:induction false} RunCounters(r: Relay, t: seq<SocketEvent>)
    requires Inv(r)
    ensures var r' := Run(r, t);
      && r'.stats.totalConnections == r.stats.totalConnections + Connects(t)
      && r'.stats.activeConnections == r.stats.activeConnections + Connects(t) - Disconnects(t)
      && r'.stats.totalCalls == r.stats.totalCalls + CallStarts(t)
      && r'.stats.startTime == r.stats.startTime
      && 0 <= r'.stats.activeCalls <= r'.stats.totalCalls
    decreases |t|
  {
    if t != [] {
      var r1 := Step(r, t[0]);
      RunCounters(r1, t[1..]);
      match t[0]
      case Connect(at) =>
      case Signal(sock, kind, at) =>
        if kind == "call-start" {
          StartCallFacts(r, sock, at);
        } else if kind == "call-end" {
          EndCallCounters(r, sock);
        }
      case Disconnect(sock, at) =>
        DisconnectCounters(r, sock, at);
    }
  }

  // ---------------------------------------------------------------- the relay as the process holds it

  /** The module-level `stats` record and `activeCalls` map of the server process. */
  class SignalServer {
    var stats: ServerStats
    var order: seq<string>
    var calls: map<string, CallSession>

    function State(): Relay
      reads this
    {
      Relay(stats, order, calls)
    }

    ghost predicate Valid()
      reads this
    {
      Inv(State())
    }

    /** Module load: zeroed counters, the start time, an empty table. */
    constructor(now: nat)
      ensures Valid() && State() == Initial(now)
    {
      stats := ServerStats(0, 0, 0, 0, None, None, 0, now);
      order := [];
      calls := map[];
    }

    /** `getServerStats`: stores the uptime in the record, then returns a copy of it. */
    method GetServerStats(now: int) returns (s: ServerStats)
      requires Valid()
      modifies this`stats
      ensures Valid()
      ensures stats == ServerStatsAt(old(State()), now) && s == stats
      ensures order == old(order) && calls == old(calls)
    {
      stats := stats.(uptime := (now - stats.startTime) / 1000);
      s := stats;
    }

    method HandleConnection(now: nat)
      requires Valid()
      modifies this`stats
      ensures Valid() && State() == OnConnect(old(State()), now)
    {
      stats := stats.(
        totalConnections := stats.totalConnections + 1,
        activeConnections := stats.activeConnections + 1,
        lastConnection := Some(now));
    }

    /** The scan over the table in insertion order that stops at the first session listing `sock`. */
    method FirstSessionWith(sock: string) returns (found: Option<nat>)
      requires Valid()
      ensures found == FirstSessionOf(order, calls, sock)
    {
      var j := 0;
      while j < |order|
        invariant 0 <= j <= |order|
        invariant forall m :: 0 <= m < j ==> !Lists(calls[order[m]], sock)
      {
        if Lists(calls[order[j]], sock) {
          return Some(j);
        }
        j := j + 1;
      }
      return None;
    }

    /** `activeCalls.delete` of the key at position `i` of the iteration. */
    method Delete(i: nat)
      requires Valid() && i < |order|
      modifies this`order, this`calls
      ensures Valid() && State() == RemoveAt(old(State()), i)
    {
      calls, order := calls - {order[i]}, order[..i] + order[i + 1..];
    }

    method HandleSignal(sock: string, kind: string, now: nat) returns (emitted: seq<Event>)
      requires Valid()
      modifies this
      ensures Valid() && Outcome(State(), emitted) == OnSignal(old(State()), sock, kind, now)
    {
      if kind == "call-start" {
        emitted := HandleCallStart(sock, now);
      } else if kind == "call-end" {
        emitted := HandleCallEnd(sock);
      } else {
        emitted := [];
      }
    }

    method HandleCallStart(sock: string, now: nat) returns (emitted: seq<Event>)
      requires Valid()
      modifies this
      ensures Valid() && Outcome(State(), emitted) == StartCall(old(State()), sock, now)
    {
      var id := CallId(now);
      var order' := order;
      if id !in calls {
        order' := order + [id];
      }
      stats, order, calls :=
        stats.(totalCalls := stats.totalCalls + 1, activeCalls := stats.activeCalls + 1),
        order',
        calls[id := CallSession(id, now, [sock])];
      emitted := [CallStatus("connecting", "Connecting your call..."), CallEstablished];
    }

    method HandleCallEnd(sock: string) returns (emitted: seq<Event>)
      requires Valid()
      modifies this
      ensures Valid() && Outcome(State(), emitted) == EndCall(old(State()), sock)
    {
      emitted := [];
      stats := stats.(activeCalls := DecrementClamped(stats.activeCalls));
      var found := FirstSessionWith(sock);
      if found.Some? {
        Delete(found.value);
        emitted := [CallEnded];
      }
    }

    method HandleDisconnect(sock: string, now: nat)
      requires Valid()
      modifies this
      ensures Valid() && State() == OnDisconnect(old(State()), sock, now)
    {
      CountDisconnection(now);
      var found := FirstSessionWith(sock);
      if found.Some? {
        Delete(found.value);
        stats := stats.(activeCalls := DecrementClamped(stats.activeCalls));
      }
    }

    /** The counters a disconnect updates before the scan. */
    method CountDisconnection(now: int)
      requires Valid()
      modifies this`stats
      ensures Valid()
      ensures State() == old(State()).(stats := old(stats).(
        activeConnections := old(stats.activeConnections) - 1,
        lastDisconnection := Some(now)))
    {
      stats := stats.(
        activeConnections := stats.activeConnections - 1,
        lastDisconnection := Some(now));
    }
  }
}

=== FILE: twilio_routes.dfy ===
/**
 * The inbound-call webhook of the server: request validation, the business-hours check,
 * the choice between the default and the fallback route, the classification of a route
 * string into a TwiML instruction, and the status codes of `/voice` and `/status`.
 *
 * The clock is an input: `localTime` is the "HH:MM" text `Intl.DateTimeFormat` gives for
 * the current instant in the widget's timezone (`None` when the timezone is rejected and
 * the formatter throws), and `weekday` is `getDay()` of the current instant in the
 * SERVER's local time. The signature check (`twilio.validateRequest`) is a boolean input.
 */
module TwilioRoutes {
  import opened Wrappers
  import opened JsText

  datatype BusinessHours = BusinessHours(start: string, end: string, timezone: string, days: seq<int>)

  /** A widget's routing settings; `None` stands for an absent (or null) property. */
  datatype Routing = Routing(
    defaultRoute: Option<string>,
    fallbackRoute: Option<string>,
    businessHours: Option<BusinessHours>)

  /** The widget record as loaded for `/voice`; `routing` is `None` when the record has none. */
  datatype Widget = Widget(routing: Option<Routing>, destination: Option<string>)

  /** The Twilio credentials in a widget's settings; "" stands for a missing one. */
  datatype TwilioSettings = TwilioSettings(accountSid: string, authToken: string)

  /** The single verb `handleRoute` adds to the voice response. */
  datatype Instruction = DialSip(uri: string) | DialNumber(number: string) | Say(message: string)

  datatype Response = Status(code: int, body: string) | Twiml(instruction: Instruction)

  const Apology := "This call cannot be completed as dialed. Please try again later."

  /** JavaScript truthiness of an optional string: present and not empty. */
  predicate Truthy(s: Option<string>) {
    s.Some? && s.value != ""
  }

  // ---------------------------------------------------------------- business hours

  /**
   * `const [h, m] = s.split(':').map(Number); h * 60 + m`. A missing minutes field
   * (no ':') or a field `Number` cannot read gives NaN, here `None`; fields after the
   * second are ignored.
   */
  function ClockMinutes(s: string): (minutes: Option<nat>)
    ensures ':' !in s ==> minutes.None?
  {
    FieldMinutes(Split(s, ':'))
  }

  /** The minute of the day the first two `split` fields denote. */
  function FieldMinutes(parts: seq<string>): Option<nat> {
    if |parts| < 2 then None
    else
      var h, m := ParseNumber(parts[0]), ParseNumber(parts[1]);
      if h.Some? && m.Some? then Some(h.value * 60 + m.value) else None
  }

  /** "HH:MM" clock text for hours and minutes, as the widget settings store it. */
  function ClockText(h: nat, m: nat): string {
    Pad2(h) + ":" + Pad2(m)
  }

  /** Two digit fields joined by ':' read as the first times 60 plus the second. */
  lemma ClockMinutesOfFields(a: string, b: string, hours: nat, minutes: nat)
    requires AllDigits(a) && AllDigits(b) && ':' !in a && ':' !in b
    requires DigitsValue(a) == hours && DigitsValue(b) == minutes
    ensures ClockMinutes(a + ":" + b) == Some(hours * 60 + minutes)
  {
    assert Split(a + ":" + b, ':') == [a, b] by {
      SplitPair(a, ':', b);
      assert a + ":" + b == a + [':'] + b;
    }
    FieldMinutesOfDigits(a, b, hours, minutes);
  }

  lemma FieldMinutesOfDigits(a: string, b: string, hours: nat, minutes: nat)
    requires AllDigits(a) && AllDigits(b)
    requires DigitsValue(a) == hours && DigitsValue(b) == minutes
    ensures FieldMinutes([a, b]) == Some(hours * 60 + minutes)
  {
  }

  /** Clock text reads back as its minute of the day. */
  lemma ClockTextMinutes(h: nat, m: nat)
    ensures ClockMinutes(ClockText(h, m)) == Some(h * 60 + m)
  {
    Pad2Facts(h);
    Pad2Facts(m);
    ClockMinutesOfFields(Pad2(h), Pad2(m), h, m);
  }

  /**
   * `checkBusinessHours`: the current weekday is one of the window's days and the current
   * minute lies between start and end, both ends included. A comparison with NaN is
   * false, so unreadable clock text is never within hours, and a window whose end is
   * before its start (an overnight window) is never open.
   */
  function CheckBusinessHours(bh: BusinessHours, localTime: string, weekday: int): (open: bool)
    ensures open ==> weekday in bh.days
    ensures open ==>
      && ClockMinutes(bh.start).Some? && ClockMinutes(bh.end).Some?
      && ClockMinutes(bh.start).value <= ClockMinutes(bh.end).value
  {
    var current := ClockMinutes(localTime);
    var startTime := ClockMinutes(bh.start);
    var endTime := ClockMinutes(bh.end);
    && weekday in bh.days
    && current.Some? && startTime.Some? && endTime.Some?
    && current.value >= startTime.value
    && current.value <= endTime.value
  }

  /**
   * For a window and a current time all written as clock text, the window is open
   * exactly when the weekday is listed and start <= now <= end in minutes of the day.
   */
  lemma BusinessHoursWindow(sh: nat, sm: nat, eh: nat, em: nat, tz: string, days: seq<int>,
                            h: nat, m: nat, weekday: int)
    ensures CheckBusinessHours(BusinessHours(ClockText(sh, sm), ClockText(eh, em), tz, days),
                               ClockText(h, m), weekday)
      <==> weekday in days && sh * 60 + sm <= h * 60 + m <= eh * 60 + em
  {
    ClockTextMinutes(sh, sm);
    ClockTextMinutes(eh, em);
    ClockTextMinutes(h, m);
  }

  // ---------------------------------------------------------------- route classification

  /** `/^\+?[1-9]\d{1,14}$/`: an optional '+', a digit 1-9, then 1 to 14 more digits. */
  predicate IsDialNumber(route: string) {
    var digits := DialDigits(route);
    && 2 <= |digits| <= 15
    && AllDigits(digits)
    && digits[0] != '0'
  }

  /** `handleRoute`: a SIP URI is dialled as SIP, a phone number is dialled, anything else gets the apology. */
  function HandleRoute(route: string): (i: Instruction)
    ensures i.DialSip? <==> "sip:" <= route
    ensures i.DialSip? ==> i.uri == route
    ensures i.DialNumber? <==> !("sip:" <= route) && IsDialNumber(route)
    ensures i.DialNumber? ==> i.number == route
    ensures i.Say? ==> i.message == Apology
  {
    if "sip:" <= route then DialSip(route)
    else if IsDialNumber(route) then DialNumber(route)
    else Say(Apology)
  }

  /** The digits after the optional '+'. */
  function DialDigits(route: string): string {
    if |route| > 0 && route[0] == '+' then route[1..] else route
  }

  /** The largest number the pattern accepts has 15 digits. */
  const DialLimit: nat := Pow10(15)

  /**
   * The numbers the pattern accepts are exactly the numerals of 10 .. 10^15 - 1, with or
   * without a leading '+'.
   */
  lemma DialNumberIsNumeral(route: string)
    ensures IsDialNumber(route) <==>
      exists n: nat :: 10 <= n < DialLimit && (route == ToDecimal(n) || route == "+" + ToDecimal(n))
  {
    if IsDialNumber(route) {
      var n := DialNumberValue(route);
      assert 10 <= n < DialLimit && (route == ToDecimal(n) || route == "+" + ToDecimal(n));
    }
    if exists n: nat :: 10 <= n < DialLimit && (route == ToDecimal(n) || route == "+" + ToDecimal(n)) {
      var n: nat :| 10 <= n < DialLimit && (route == ToDecimal(n) || route == "+" + ToDecimal(n));
      NumeralIsDialNumber(n, route);
    }
  }

  lemma DialNumberValue(route: string) returns (n: nat)
    requires IsDialNumber(route)
    ensures 10 <= n < DialLimit && (route == ToDecimal(n) || route == "+" + ToDecimal(n))
  {
    var digits := DialDigits(route);
    n := DigitsValue(digits);
    CanonicalRoundTrip(digits);
    NumeralLengthRange(n);
    if |route| > 0 && route[0] == '+' {
      assert route == "+" + digits;
    }
  }

  lemma NumeralIsDialNumber(n: nat, route: string)
    requires 10 <= n < DialLimit && (route == ToDecimal(n) || route == "+" + ToDecimal(n))
    ensures IsDialNumber(route)
  {
    var d := ToDecimal(n);
    NumeralLengthRange(n);
    assert DialDigits(route) == d;
  }

  /** A numeral has 2 to 15 digits exactly when its number is in 10 .. 10^15 - 1. */
  lemma NumeralLengthRange(n: nat)
    ensures 2 <= |ToDecimal(n)| <= 15 <==> 10 <= n < DialLimit
  {
    DecimalLength(n, 15);
    DecimalLength(n, 1);
    assert Pow10(1) == 10 * Pow10(0);
  }

  /**
   * What the pattern refuses: a leading zero, a single digit, more than 15 digits, and
   * any character other than a digit after the optional '+'.
   */
  lemma DialNumberRejects(route: string)
    ensures var digits := DialDigits(route);
      && (|digits| > 0 && digits[0] == '0' ==> HandleRoute(route) != DialNumber(route))
      && (|digits| < 2 || |digits| > 15 ==> !HandleRoute(route).DialNumber?)
      && (!AllDigits(digits) ==> !HandleRoute(route).DialNumber?)
  {
  }

  // ---------------------------------------------------------------- route selection

  /**
   * Whether the call counts as within business hours: `true` without a window, otherwise
   * the window check; `None` when the timezone conversion threw.
   */
  function WithinBusinessHours(r: Routing, localTime: Option<string>, weekday: int): (within: Option<bool>)
    ensures r.businessHours.None? ==> within == Some(true)
    ensures within.None? <==> r.businessHours.Some? && localTime.None?
    ensures within == Some(true) && r.businessHours.Some? ==> weekday in r.businessHours.value.days
  {
    if r.businessHours.None? then Some(true)
    else if localTime.None? then None
    else Some(CheckBusinessHours(r.businessHours.value, localTime.value, weekday))
  }

  /**
   * The route string `/voice` hands to `handleRoute`: the fallback when out of hours and
   * a fallback is set, otherwise `defaultRoute || destination`. `None` when the handler
   * throws first: no routing settings, a rejected timezone, or no route string at all.
   */
  function SelectRoute(w: Widget, localTime: Option<string>, weekday: int): (route: Option<string>)
    ensures route.Some? ==> w.routing.Some? && (route == PrimaryRoute(w) || route == w.routing.value.fallbackRoute)
  {
    if w.routing.None? then None
    else
      var r := w.routing.value;
      match WithinBusinessHours(r, localTime, weekday)
      case None => None
      case Some(inHours) =>
        if !inHours && Truthy(r.fallbackRoute) then r.fallbackRoute
        else if Truthy(r.defaultRoute) then r.defaultRoute
        else w.destination
  }

  /** The primary route: `defaultRoute || destination`. */
  function PrimaryRoute(w: Widget): Option<string>
    requires w.routing.Some?
  {
    if Truthy(w.routing.value.defaultRoute) then w.routing.value.defaultRoute else w.destination
  }

  /**
   * The decision table of route selection: without business hours the primary route is
   * used whatever the time; within hours the primary route; out of hours the fallback if
   * one is set, otherwise the call fails open to the primary route.
   */
  lemma RouteSelection(w: Widget, localTime: Option<string>, weekday: int)
    requires w.routing.Some?
    ensures var r := w.routing.value;
      && (r.businessHours.None? ==> SelectRoute(w, localTime, weekday) == PrimaryRoute(w))
      && (r.businessHours.Some? && localTime.Some? ==>
            var open := CheckBusinessHours(r.businessHours.value, localTime.value, weekday);
            SelectRoute(w, localTime, weekday) ==
              if !open && Truthy(r.fallbackRoute) then r.fallbackRoute else PrimaryRoute(w))
      && (r.businessHours.Some? && localTime.None? ==> SelectRoute(w, localTime, weekday).None?)
  {
  }

  /**
   * When a call is routed anywhere but the primary route, it was out of hours and went to
   * the fallback that was set.
   */
  lemma FallbackOnlyOutOfHours(w: Widget, localTime: Option<string>, weekday: int)
    requires w.routing.Some? && SelectRoute(w, localTime, weekday).Some?
    requires SelectRoute(w, localTime, weekday) != PrimaryRoute(w)
    ensures var r := w.routing.value;
      && r.businessHours.Some? && localTime.Some?
      && (SelectRoute(w, localTime, weekday) == r.fallbackRoute)
      && Truthy(r.fallbackRoute)
      && !CheckBusinessHours(r.businessHours.value, localTime.value, weekday)
  {
  }

  // ---------------------------------------------------------------- handlers

  /**
   * `validateTwilioRequest`: false when the settings lookup failed or a credential is
   * missing (the thrown error is caught), otherwise the signature check's verdict.
   */
  function ValidateTwilioRequest(settings: Option<TwilioSettings>, signatureValid: bool): (valid: bool)
    ensures valid <==> settings.Some? && settings.value.accountSid != "" && settings.value.authToken != "" && signatureValid
  {
    match settings
    case None => false
    case Some(s) =>
      if s.accountSid == "" || s.authToken == "" then false else signatureValid
  }

  /**
   * `POST /voice/:widgetId`: 403 for a request that fails validation, 404 for a widget
   * that cannot be loaded, 500 when routing throws, otherwise the TwiML for the route.
   */
  function VoiceHandler(settings: Option<TwilioSettings>, signatureValid: bool, widget: Option<Widget>,
                        localTime: Option<string>, weekday: int): (resp: Response)
    ensures resp.Status? ==> resp.code == 403 || resp.code == 404 || resp.code == 500
  {
    if !ValidateTwilioRequest(settings, signatureValid) then Status(403, "Invalid Twilio request")
    else if widget.None? then Status(404, "Widget not found")
    else match SelectRoute(widget.value, localTime, weekday)
      case None => Status(500, "Error handling call")
      case Some(route) => Twiml(HandleRoute(route))
  }

  /** `POST /status/:widgetId`: 403 for a request that fails validation, otherwise 200. */
  function StatusHandler(settings: Option<TwilioSettings>, signatureValid: bool): (resp: Response)
    ensures resp.Status? && (resp.code == 200 || resp.code == 403)
  {
    if !ValidateTwilioRequest(settings, signatureValid) then Status(403, "Invalid Twilio request")
    else Status(200, "OK")
  }

  /**
   * The order of the `/voice` decisions: validation first (no credentials, a failed
   * lookup or a bad signature all give 403 before the widget is looked at), then the
   * widget (404), and only then routing, which answers with exactly one instruction.
   */
  lemma VoiceDecisionOrder(settings: Option<TwilioSettings>, signatureValid: bool, widget: Option<Widget>,
                           localTime: Option<string>, weekday: int)
    ensures var resp := VoiceHandler(settings, signatureValid, widget, localTime, weekday);
      && (resp == Status(403, "Invalid Twilio request") <==> !ValidateTwilioRequest(settings, signatureValid))
      && (resp == Status(404, "Widget not found") <==>
            ValidateTwilioRequest(settings, signatureValid) && widget.None?)
      && (resp.Twiml? <==>
            && ValidateTwilioRequest(settings, signatureValid) && widget.Some?
            && SelectRoute(widget.value, localTime, weekday).Some?)
      && (resp.Twiml? ==> resp.instruction == HandleRoute(SelectRoute(widget.value, localTime, weekday).value))
  {
  }

  /** `/status` acknowledges with 200 exactly the requests that pass validation. */
  lemma StatusAcknowledges(settings: Option<TwilioSettings>, signatureValid: bool)
    ensures StatusHandler(settings, signatureValid).code == 200 <==> ValidateTwilioRequest(settings, signatureValid)
    ensures StatusHandler(settings, signatureValid).code in {200, 403}
  {
  }
}

=== FILE: wrappers.dfy ===
/** Optional values: the model's stand-in for JavaScript's `undefined`/`null`. */
module Wrappers {

  datatype Option<+T> = None | Some(value: T)
}
